=== FILE: README.md ===
# Meteo journal: the aggregation core of the React front end

The meteo journal shows, for each crop, how much heat and rain its fields
have received against the agronomic norms of each growing period. The
numbers on its screens are computed in the React components from one
already fetched snapshot (farms, their fields, per-crop average periods,
weather stations and norms). This project models that computation in Dafny
and proves what it promises:

- **CropSelector** (`crop_selector.dfy`): the crop list minus the
  operator's exceptions. It also models `calculateWeightedAverages`, the
  crop-level rollup in which every farm is weighted by the tillable area
  of its fields growing the crop. The model keeps the accumulation as the
  source does it (an insertion-ordered `periodMap`). It is related to an
  independent reference definition (per-period area, Σ value·weight and
  the first-seen name over a flat list of contributions).
- **HumidityChart** (`humidity_chart.dfy`): the relative-humidity series.
  In selected-field mode it is the raw series of one station. In aggregate
  mode it is the per-date mean over stations weighted by the field area
  each station serves, with the null guard and the date order.
- **FarmSelector**, **FieldsTable**, **FarmCardChart**, **FieldSelector**
  (`farm_selector.dfy`, `fields_table.dfy`, `farm_card_chart.dfy`,
  `field_selector.dfy`):
  - the farms listed for a crop;
  - the choice between a field's own periods and the farm average;
  - the per-field fact/norm percentages and progress bars;
  - the capped card percentage and pie split;
  - the narrowing of one farm to a selected field.
- **CropFilter** and **WeatherNormsTable** (`crop_filter.dfy`,
  `weather_norms_table.dfy`): two client-side state machines, with each
  server answer as an input (success with an id, or failure):
  - excluding and re-admitting crops;
  - the norm-period list (add the next period, edit a row, delete the last
    period).

Shared modules:

- `form_types.dfy` (FormTypes): the snapshot's records, with JSON `null`
  as `Option`.
- `assoc_list.dfy` (AssocList): a JavaScript object with integer keys,
  modelled as an insertion-ordered list of pairs. It enumerates in
  ascending key order once sorted.
- `js_number.dfy` (JsNumber): JavaScript division with NaN and the
  infinities, `toFixed(1)` and `Math.round(x * 10) / 10`.
- `string_order.dfy` (StringOrder): the default string order of
  `Array.prototype.sort`.

Modelling conventions:

- Numbers are exact `real`s.
- Dates are already parsed and are integers.
- `Number(s)` on user input is a function parameter `toNumber`.

## Model

| member | source | states |
|---|---|---|
| CropSelector.CropList | src/components/CropSelector/CropSelector.tsx:32-41 | The selector lists each crop once. A crop is listed iff some farm has averages for it and it is not among the excepted crops. |
| CropSelector.WeightIsAreaGrowing | src/components/CropSelector/CropSelector.tsx:48-49 | A farm's weight equals the summed tillable area, with null read as 0, of exactly those of its fields whose crop name is the crop. |
| CropSelector.FarmWithoutCropIgnored | src/components/CropSelector/CropSelector.tsx:50-50 | Adding a farm with no averages for the crop changes neither the total area nor any period of the rollup. |
| CropSelector.CalculateWeightedAverages | src/components/CropSelector/CropSelector.tsx:43-115 | The total area is the sum of the weights of the farms that have the crop, added once per farm. Periods come in strictly ascending id order, and every id some contributing farm lists appears. Each period summarises the contributions with that id: area-weighted means of the six readings, the first-seen name, and zero or null for dates, days, min temperature, id and temperature base. |
| CropSelector.VisitFarmsInvariant | src/components/CropSelector/CropSelector.tsx:47-85 | After the accumulation loop, each `periodMap` entry holds exactly the reference area, the six Σ value·weight sums and the first-seen name for its id. An id is present iff some contribution carries it. The running total is the reference total area. |
| CropSelector.FinalValue | src/components/CropSelector/CropSelector.tsx:101-109 | The reported value is null iff the period's area is zero. Otherwise it is within 0.05 of sum / area, which is what rounding with `toFixed(1)` gives. |
| CropSelector.NameOut | src/components/CropSelector/CropSelector.tsx:99-99 | A period name is emitted only when it is non-empty, and then unchanged; an empty or missing name becomes null. |
| CropSelector.MeanWithinRange | src/components/CropSelector/CropSelector.tsx:101-109 | With non-negative weights, each reported mean lies between the least and greatest contributing value of that period, up to the rounding to one decimal. |
| CropSelector.GuardAgreesWhereAreaNonZero | src/components/CropSelector/CropSelector.tsx:101-109 | Wherever the area is non-zero, the unguarded division of the source and the guarded value agree. |
| CropSelector.ZeroAreaPeriodIsNaN | src/components/CropSelector/CropSelector.tsx:50-52 | A farm that has the crop's averages but no field growing the crop creates a period of area 0, which the source divides by zero into NaN. |
| HumidityChart.FieldWithId | src/components/HumidityChart/HumidityChart.tsx:33-33 | The selected field is the first field with that id. There is none iff no field carries the id. |
| HumidityChart.StationOf | src/components/HumidityChart/HumidityChart.tsx:36-38 | The station is the first record with the field's station id, and later records of it are ignored. There is none iff no record matches. |
| HumidityChart.SelectedChart | src/components/HumidityChart/HumidityChart.tsx:32-49 | In selected-field mode the series is empty when the field or its station is missing. Otherwise its points are exactly the station's readings, each humidity unchanged. |
| HumidityChart.StationWeightOfFields | src/components/HumidityChart/HumidityChart.tsx:51-61 | A station's weight is the summed area of all fields on that station. It is skipped exactly when no field uses it or that sum is zero. |
| HumidityChart.AggregateChart | src/components/HumidityChart/HumidityChart.tsx:59-78 | In aggregate mode there is a point for a date iff some counted station reports it. Its humidity is Σ humidity·weight / Σ weight over those readings, or null when the weights sum to zero. |
| HumidityChart.ChartData | src/components/HumidityChart/HumidityChart.tsx:73-78 | One point per accumulated date, in strictly ascending date order. Each humidity is total/weight, or null when the weight is zero. |
| HumidityChart.Mean | src/components/HumidityChart/HumidityChart.tsx:76-76 | No division happens on a zero weight (the result is null). Otherwise the mean times the weight is the total. |
| HumidityChart.NoGapsWithoutNegativeAreas | src/components/HumidityChart/HumidityChart.tsx:59-76 | When no field area is negative, every aggregate point has a humidity value. |
| HumidityChart.TwoStationExample | src/components/HumidityChart/HumidityChart.tsx:51-78 | Fields of area 100 and 300 on two stations reading 50 and 70 on the same date give the single point (50·100 + 70·300)/400 = 65. |
| FarmSelector.FarmsWithCrop | src/components/FarmSelector/FarmSelector.tsx:21-23 | The farms listed are exactly those of the dataset with averages for the crop, and no more of them than the dataset holds. Order and multiplicity are stated by the next two rows. |
| FarmSelector.FarmsWithCropAppend | src/components/FarmSelector/FarmSelector.tsx:21-23 | Filtering two datasets placed one after the other gives the two filtered lists one after the other, so the farms keep their enumeration order and each occurrence is kept or dropped on its own. |
| FarmSelector.FarmsWithCropSingle | src/components/FarmSelector/FarmSelector.tsx:21-23 | A single farm is listed, once, exactly when it has averages for the crop. |
| FarmSelector.FarmsWithCropIdempotent | src/components/FarmSelector/FarmSelector.tsx:21-23 | Filtering the listed farms by the crop again changes nothing. |
| FarmSelector.FarmListedIff | src/components/FarmSelector/FarmSelector.tsx:21-28 | A card with a farm's name is shown iff that farm has averages for the crop. |
| FarmSelector.Cards | src/components/FarmSelector/FarmSelector.tsx:28-56 | One card per listed farm, in the listed order, each with that farm's title and periods. |
| FarmSelector.SelectedField | src/components/FarmSelector/FarmSelector.tsx:30-35 | There is no selected field without a selection id. With one, a field is found iff some field has that shape id, and the one found is the first such field of the farm. |
| FarmSelector.FarmPeriods | src/components/FarmSelector/FarmSelector.tsx:37-40 | The card's periods are either the farm's averages for the crop or the found field's own periods, never anything else. |
| FarmSelector.NoSelectionShowsAverages | src/components/FarmSelector/FarmSelector.tsx:30-40 | With no selection every card shows its farm's averages for the crop. |
| FarmSelector.FieldPeriodsVerbatim | src/components/FarmSelector/FarmSelector.tsx:30-39 | When a field is the first with its shape id and has non-empty periods, selecting that id shows those periods verbatim, and the title names that field. |
| FarmSelector.FallBackToAverage | src/components/FarmSelector/FarmSelector.tsx:30-40 | When no field has the selected shape id, or the first one that has it lacks non-empty periods of its own, the card shows the farm's averages (later fields with that id are never consulted). |
| CropFilter.ClickBeforeLoadSendsNothing | src/components/CropFilter/CropFilter.tsx:16-17 | Before the exclusions load nothing is ticked and no record exists, so a click sends no request and leaves the state as it was (lines 49-76). |
| FarmSelector.Title | src/components/FarmSelector/FarmSelector.tsx:42-44 | The title is the farm name alone, or the farm name, the separator and the field name. |
| FarmSelector.TitleNamesFieldIff | src/components/FarmSelector/FarmSelector.tsx:42-44 | The title carries more than the farm name iff the selected field was found in that farm. |
| FieldsTable.FieldEntries | src/components/FieldsTable/FieldsTable.tsx:20-23 | A missing farm gives no table. Otherwise the rows are exactly the farm's fields of the crop. They come from `FieldsOfCrop`, whose order and multiplicity are stated by the next two rows. |
| FormTypes.FieldsOfCropAppend | src/components/FieldsTable/FieldsTable.tsx:20-23 | Filtering two field lists placed one after the other gives the two filtered lists one after the other, so the fields keep their order and each occurrence is kept or dropped on its own. |
| FormTypes.FieldsOfCropSingle | src/components/FieldsTable/FieldsTable.tsx:20-23 | A single field is kept, once, exactly when it grows the crop. |
| FieldsTable.Total | src/components/FieldsTable/FieldsTable.tsx:41-59 | A field without a period list totals 0. With one, the total is the left-to-right sum of the reading over the periods, a missing reading adding 0. |
| FieldsTable.Rows | src/components/FieldsTable/FieldsTable.tsx:20-62 | No rows for a missing farm. Otherwise one row per field of the crop, in order, each with its field's two percentages. |
| FieldsTable.MissingReadingsTotalZero | src/components/FieldsTable/FieldsTable.tsx:41-59 | The totals read missing values as 0. An absent period list totals 0, and a list with no readings of that kind totals 0. |
| FieldsTable.Percent | src/components/FieldsTable/FieldsTable.tsx:61-62 | The percent is null iff the norm total is zero. Otherwise the percent times the norm is the fact times 100. |
| FieldsTable.ProgressBar | src/components/FieldsTable/FieldsTable.tsx:85-86 | The width never exceeds 100 or the percent, and is one of them. The bar is complete iff the width is 100. |
| FieldsTable.CompleteIffNormReached | src/components/FieldsTable/FieldsTable.tsx:61-86 | With a positive norm, the bar shows the complete colour iff the fact has reached the norm. |
| FieldsTable.ToggleRow | src/components/FieldsTable/FieldsTable.tsx:69-70 | A click selects nothing or exactly the clicked row. |
| FieldsTable.ToggleRowFlips | src/components/FieldsTable/FieldsTable.tsx:69-70 | Clicking the selected row clears the selection, and clicking any other row selects it. |
| FieldsTable.ToggleRowTwice | src/components/FieldsTable/FieldsTable.tsx:69-70 | Two clicks on the same row restore an empty selection, or that row's own selection. |
| FarmCardChart.CardTotals | src/components/FarmCardChart/FarmCardChart.tsx:13-17 | No periods give four zero totals. A single period gives its own four readings, a null reading counting as 0. With CardTotalsAppend this fixes each total as the sum over all periods. |
| FarmCardChart.CardTotalsAppend | src/components/FarmCardChart/FarmCardChart.tsx:13-17 | Each total over two period lists shown one after the other is the sum of their totals. |
| FarmCardChart.GetPercent | src/components/FarmCardChart/FarmCardChart.tsx:19-21 | The percentage never exceeds 100 and is never +Infinity. It is a number whenever the norm is non-zero, and NaN iff norm and actual are both zero. |
| FarmCardChart.PercentFullIffNormReached | src/components/FarmCardChart/FarmCardChart.tsx:19-21 | With a positive norm the percentage is min(actual/norm·100, 100). It is 100 iff actual has reached the norm. |
| FarmCardChart.ZeroNormPercent | src/components/FarmCardChart/FarmCardChart.tsx:19-21 | A zero norm gives 100 for a positive actual, NaN for zero and -Infinity for a negative actual. |
| FarmCardChart.PieSlices | src/components/FarmCardChart/FarmCardChart.tsx:30-31 | Before rounding the two slices add up to the norm. The fact slice is actual or the norm, never more than either, so it is the smaller of the two. The remainder is zero iff actual has reached the norm. |
| FarmCardChart.FactSliceIsPercent | src/components/FarmCardChart/FarmCardChart.tsx:19-33 | With a positive norm the fact slice as a share of the norm, times 100, is exactly the percentage shown beside the pie. |
| FarmCardChart.SlicesNonNegative | src/components/FarmCardChart/FarmCardChart.tsx:30-31 | For non-negative totals both slices are non-negative, and the fact slice is the whole norm iff nothing remains. |
| FarmCardChart.RoundedSlices | src/components/FarmCardChart/FarmCardChart.tsx:30-31 | Each drawn slice is a whole number of tenths, above its raw slice less 0.05 and at most the raw slice plus 0.05. |
| JsNumber.MathRound1Unique | src/components/FarmCardChart/FarmCardChart.tsx:30-31 | `Math.round(x * 10) / 10` is the only whole number of tenths in (x - 0.05, x + 0.05], so the clauses above fix each slice. |
| FarmCardChart.RoundedSlicesClose | src/components/FarmCardChart/FarmCardChart.tsx:30-31 | After rounding each slice to a tenth, the pie still adds up to the norm within 0.1, and no slice becomes negative. |
| FieldSelector.SelectedField | src/components/FieldSelector/FieldSelector.tsx:26-26 | A null or 0 id, or a missing farm, selects nothing. Otherwise a field is found iff the farm has a field under that key, and it is that key's field. |
| FieldSelector.SelectedFieldName | src/components/FieldSelector/FieldSelector.tsx:28-30 | Without a farm or a selection there is no name. Otherwise the name is that of the first field with the selected shape id, and there is none when no field has that id or its name is empty. |
| FieldSelector.HeadingNamesCardField | src/components/FieldSelector/FieldSelector.tsx:26-61 | When every field key is its field's shape id and keys are distinct, the heading names exactly the field that the farm card, drawn from the narrowed data, finds for the same selection (src/components/FarmSelector/FarmSelector.tsx:30-35). It names nothing when that field is missing or unnamed. |
| FieldSelector.HeadingAndCardDisagree | src/components/FieldSelector/FieldSelector.tsx:26-61 | Without that hypothesis the two disagree: with shape 7 under key 5 and shape 5 (named "B") under key 7, selecting 5 gives a card without a field and the heading "B". |
| FieldSelector.VisibleFields | src/components/FieldSelector/FieldSelector.tsx:36-38 | The fields kept are the selected field alone under its key when it is found, and every field of the farm otherwise. |
| FieldSelector.FilteredFarmData | src/components/FieldSelector/FieldSelector.tsx:33-40 | The narrowed dataset holds only this farm. Everything but its fields is unchanged, and its fields are the visible ones: the found field alone, or all of them. |
| FieldSelector.ChartFields | src/components/FieldSelector/FieldSelector.tsx:42-53 | One chart field per kept field, in order, carrying its shape id, station and area. |
| FieldSelector.UnselectedChartHasAllCrops | src/components/FieldSelector/FieldSelector.tsx:44-53 | With no selection every field of the farm, whatever its crop, is handed to the humidity chart. |
| FieldSelector.SelectionNarrows | src/components/FieldSelector/FieldSelector.tsx:33-53 | A found selection narrows both the table data and the chart to exactly that field. |
| FieldSelector.KeyAndShapeLookupsAgree | src/components/FieldSelector/FieldSelector.tsx:26-30 | When every field key is its shape id, the key lookup and the shape-id lookup find a field in the same cases, and find the same field. |
| FieldSelector.OnFieldSelect | src/components/FieldSelector/FieldSelector.tsx:82-84 | The screen's selection toggles like the table's highlight: the same id clears it, any other id selects that id. |
| CropFilter.CropList | src/components/CropFilter/CropFilter.tsx:20-28 | The dialog's list is strictly ascending and holds exactly the crops some farm has averages for. |
| CropFilter.CropListCanonical | src/components/CropFilter/CropFilter.tsx:20-28 | The list names each crop once and depends only on which crops occur, not on the order farms or keys are enumerated in. |
| CropFilter.ExceptionMap | src/components/CropFilter/CropFilter.tsx:35-41 | The map's keys are exactly the excepted crops. |
| CropFilter.LastEntryWins | src/components/CropFilter/CropFilter.tsx:38-41 | For a crop excepted more than once, the last entry's id is recorded. |
| CropFilter.Load | src/components/CropFilter/CropFilter.tsx:35-44 | After loading, a crop is ticked iff it is in the list and not excepted. No crop is both ticked and excepted. |
| CropFilter.RequestFor | src/components/CropFilter/CropFilter.tsx:49-76 | A click on a ticked crop sends a POST. On an unticked crop it sends a DELETE of its recorded id when that id is truthy, and nothing otherwise. |
| CropFilter.Toggle | src/components/CropFilter/CropFilter.tsx:49-94 | On a failure or a no-op click nothing changes. A successful POST unticks the crop and records the returned id. A successful DELETE ticks it and drops its record. No other crop's tick or record changes. |
| CropFilter.ToggleKeepsConsistent | src/components/CropFilter/CropFilter.tsx:64-89 | No click ever leaves a crop both ticked and excepted. |
| CropFilter.ToggleStaysInList | src/components/CropFilter/CropFilter.tsx:82-83 | The ticked crops stay within the list. |
| CropFilter.ExcludeThenReadmit | src/components/CropFilter/CropFilter.tsx:52-92 | Excluding a crop and re-admitting it restores the dialog, given a truthy id. |
| CropFilter.ZeroIdSticks | src/components/CropFilter/CropFilter.tsx:72-73 | A crop whose record got id 0 can never be re-admitted: further clicks are no-ops. |
| CropFilter.LoadThenReadmit | src/components/CropFilter/CropFilter.tsx:35-92 | Right after loading, an excepted listed crop with truthy stored ids is re-admitted by one successful DELETE. |
| WeatherNormsTable.CropNorms | src/components/WeatherNormsTable/WeatherNormsTable.tsx:88-88 | The table holds exactly the fetched norms of the crop, no more rows than were fetched. Order and multiplicity are stated by the next two rows. |
| WeatherNormsTable.CropNormsAppend | src/components/WeatherNormsTable/WeatherNormsTable.tsx:88-88 | Filtering two fetched lists placed one after the other gives the two filtered lists one after the other, so the rows keep the fetched order and each occurrence is kept or dropped on its own. |
| WeatherNormsTable.CropNormsSingle | src/components/WeatherNormsTable/WeatherNormsTable.tsx:88-88 | A single fetched row is kept, once, exactly when it belongs to the crop. |
| WeatherNormsTable.SortByPeriod | src/components/WeatherNormsTable/WeatherNormsTable.tsx:101-101 | The sorted rows are in ascending period order and are a permutation of the rows. |
| WeatherNormsTable.ShownRows | src/components/WeatherNormsTable/WeatherNormsTable.tsx:88-101 | The rows shown are in period order, and they are the crop's norms, each as many times as it was fetched (equal multisets). |
| WeatherNormsTable.LastPeriodId | src/components/WeatherNormsTable/WeatherNormsTable.tsx:102-102 | The last period is the largest period of the rows, attained by a row, or 0 for an empty table. |
| WeatherNormsTable.NextPeriodId | src/components/WeatherNormsTable/WeatherNormsTable.tsx:104-107 | The proposed period exceeds every row's period. It is one past an existing row's period, or 1 for an empty table. |
| WeatherNormsTable.StartAdd | src/components/WeatherNormsTable/WeatherNormsTable.tsx:104-116 | Opening the add row proposes the next period with every input empty, so it cannot be submitted as is. |
| WeatherNormsTable.SubmitAdd | src/components/WeatherNormsTable/WeatherNormsTable.tsx:118-161 | An unfilled form or a failed request leaves the rows unchanged. A successful add appends exactly one norm after the old rows: the crop, the chosen period, the converted inputs, the name and the server's id. |
| WeatherNormsTable.InputChange | src/components/WeatherNormsTable/WeatherNormsTable.tsx:20-24 | Typing in the name column keeps the text as the name. Other columns never touch the name, the id, the crop or the period. |
| WeatherNormsTable.InputsKeepIdentity | src/components/WeatherNormsTable/WeatherNormsTable.tsx:15-24 | An edit begun on a row still carries that row's id and period after any keystrokes. |
| WeatherNormsTable.CommitEdit | src/components/WeatherNormsTable/WeatherNormsTable.tsx:57-63 | Committing never changes the row count. Nothing changes on failure or when the edited values carry no id. After a success every row with the id becomes that row merged with the edited values, and rows with another id are never changed. |
| WeatherNormsTable.Merge | src/components/WeatherNormsTable/WeatherNormsTable.tsx:60-60 | Every column of the merged row is the edited value where one was given and the row's own value otherwise. |
| WeatherNormsTable.MergeIdempotent | src/components/WeatherNormsTable/WeatherNormsTable.tsx:60-60 | Merging the same edited values twice gives the same row as merging them once. |
| WeatherNormsTable.CommitEditTwice | src/components/WeatherNormsTable/WeatherNormsTable.tsx:43-63 | After a successful commit whose values keep the row's id, committing the same values again, whatever the reply, changes nothing. |
| WeatherNormsTable.FromNorm | src/components/WeatherNormsTable/WeatherNormsTable.tsx:15-18 | Starting an edit copies the row, so the edit carries the row's id and period. |
| WeatherNormsTable.UntouchedEditIsIdentity | src/components/WeatherNormsTable/WeatherNormsTable.tsx:15-63 | Committing a row's untouched values leaves the table as it was. |
| WeatherNormsTable.EditKeepsPeriods | src/components/WeatherNormsTable/WeatherNormsTable.tsx:57-63 | Committing an edit begun on a row keeps every row's period. |
| WeatherNormsTable.Delete | src/components/WeatherNormsTable/WeatherNormsTable.tsx:171-189 | A failed delete changes nothing. A successful one keeps exactly the rows with another id. Order and multiplicity are stated by the next two rows. |
| WeatherNormsTable.DeleteAppend | src/components/WeatherNormsTable/WeatherNormsTable.tsx:171-189 | Deleting from two lists placed one after the other gives the two results one after the other, so the remaining rows keep their order and each occurrence is kept or dropped on its own. |
| WeatherNormsTable.DeleteSingle | src/components/WeatherNormsTable/WeatherNormsTable.tsx:171-189 | A single row disappears exactly when the DELETE succeeded and the row has the id; otherwise it stays, once. |
| WeatherNormsTable.NextOfContiguous | src/components/WeatherNormsTable/WeatherNormsTable.tsx:102-105 | When the periods are 1..n, the last period is n and the proposed one is n + 1. |
| WeatherNormsTable.AddKeepsContiguous | src/components/WeatherNormsTable/WeatherNormsTable.tsx:104-161 | Adding the proposed period to a table with periods 1..n keeps the periods contiguous. |
| WeatherNormsTable.DeleteOfferedOnlyLatest | src/components/WeatherNormsTable/WeatherNormsTable.tsx:314-321 | A row carries the delete control iff no row has a later period, and a non-empty table offers it on some row. |
| WeatherNormsTable.DeleteLastKeepsContiguous | src/components/WeatherNormsTable/WeatherNormsTable.tsx:171-189 | Deleting a row that carries the delete control (only rows of the last period do) keeps periods 1..n contiguous. |

## Left out

- I/O, not modelled: every `fetch`, `console`, `alert`, `window.confirm`, keyboard listener and the rendering. Each request's outcome is an input (`Reply`).
- Concurrency, not modelled: the order in which React applies state updates and closures that see stale state. Each transition reads the state it is given.
- Floating point, not modelled: sums and means are exact reals. Only the one-decimal rounding is modelled, and JavaScript's NaN and infinities only where a division can produce them.
- `undefined` values are not modelled. JSON `null` in a numeric field is `Option`, read as 0 wherever the source uses `?? 0`, `|| 0` or plain addition.
- A missing `fields` object is modelled as an empty one. In the source the fields table then shows its "no data for this farm" message where the model gives an empty table, and, when a field is selected, the farm cards would throw on `Object.values(undefined)` (src/components/FarmSelector/FarmSelector.tsx:31-32). With no selection the cards never read `fields`.
- Period ids are `nat`. The rollup emits periods in ascending id order because JavaScript lists integer-like object keys in ascending order. A negative or fractional `period_id` would be listed in insertion order instead; that case is not modelled.
- Dates are parsed integers. Date string parsing and two strings naming the same instant are left out.
- JavaScript objects are modelled as lists of (key, value) pairs. Where a property needs keys to be unique, as in any parsed JSON object, it says so (`KeysDistinct`).
- `Number(s)` on user input is the parameter `toNumber`; string-to-number conversion is left out.
- `String.prototype` comparison is on UTF-16 code units, while the model compares Dafny characters. The two orders agree outside surrogate pairs.
- `src/App.tsx`, `src/utils/api.ts`, WeatherTable, Header and LoadingOverlay are not part of this model. They are routing, fetching and rendering.
- The add row's per-input `handleChange` and Escape closing the editors are left out: they only copy text into form state.
- FieldSelector.SelectedField: the selection is the shape id reported by the table but is looked up as a field key. The model proves the two lookups agree only when every key is its field's shape id (`KeyAndShapeLookupsAgree`). Otherwise the narrowed data and the heading may name different fields, exactly as in the source (`HeadingAndCardDisagree`).
- WeatherNormsTable.SortByPeriod: the sort is proved ordered and a permutation. That it is stable (rows with equal periods keep their order) is not stated.
- WeatherNormsTable.InputChange: the numeric columns are stated only not to touch the name, id, crop or period. That each becomes `toNumber(value)` is in the body, not the contract.
- FarmCardChart.CardTotals: a period whose `norms` or `weather` object is itself missing would throw in the source. The model has no such periods.

## Findings

| source | as written | input that shows it | evidently intended | confidence | as-written member | corrected member |
|---|---|---|---|---|---|---|
| src/components/CropSelector/CropSelector.tsx:101-109 | each period sum is divided by the period's area with no zero guard; the farm is added before any field is required (lines 49-52) | one farm with a `wheat` average period 1 and no field growing wheat: area 0, so 0/0 gives NaN for every value | a period with no area reports null instead of NaN | not executed | CropSelector.ZeroAreaPeriodIsNaN | CropSelector.FinalValue |

=== FILE: assoc_list.dfy ===
/** A JS object (or `Map`) with numeric keys, as the list of its entries in
    insertion order: `m[k]` is `Find`, `m[k] = v` is `Put`. `SortByKey` is the
    ascending order both `Object.entries` (integer keys) and an explicit
    `sort` by key produce. */
module AssocList {
  import opened FormTypes

  predicate HasKey<V>(s: seq<(int, V)>, k: int) {
    exists i :: 0 <= i < |s| && s[i].0 == k
  }

  predicate KeysDistinct<V>(s: seq<(int, V)>) {
    forall i, j :: 0 <= i < j < |s| ==> s[i].0 != s[j].0
  }

  predicate StrictlyAscending<V>(s: seq<(int, V)>) {
    forall i, j :: 0 <= i < j < |s| ==> s[i].0 < s[j].0
  }

  /** `m[k]`, `undefined` being `None`. */
  function Find<V>(s: seq<(int, V)>, k: int): (r: Option<V>)
    ensures r.None? <==> !HasKey(s, k)
    ensures r.Some? ==> (k, r.value) in s
  {
    if |s| == 0 then None
    else if s[0].0 == k then Some(s[0].1)
    else
      assert forall i :: 1 <= i < |s| ==> s[i] == s[1..][i - 1];
      Find(s[1..], k)
  }

  /** `m[k] = v`: an existing key keeps its place, a new one goes last. Its
      properties are the lemmas below, so that a proof pays for them only
      where it asks. */
  function Put<V>(s: seq<(int, V)>, k: int, v: V): seq<(int, V)> {
    if |s| == 0 then [(k, v)]
    else if s[0].0 == k then [(k, v)] + s[1..]
    else [s[0]] + Put(s[1..], k, v)
  }

  /** After `m[k] = v`, `k` reads `v` and every other key reads as before. */
  lemma {:induction false} FindPut<V>(s: seq<(int, V)>, k: int, v: V, k': int)
    ensures Find(Put(s, k, v), k') == if k' == k then Some(v) else Find(s, k')
    decreases |s|
  {
    var r := Put(s, k, v);
    if |s| > 0 {
      if s[0].0 == k {
        assert r[1..] == s[1..];
      } else {
        FindPut(s[1..], k, v, k');
        assert r[1..] == Put(s[1..], k, v);
      }
    }
  }

  /** An existing key is overwritten in place; a new key is appended. */
  lemma {:induction false} PutPlacement<V>(s: seq<(int, V)>, k: int, v: V)
    ensures HasKey(s, k) ==> |Put(s, k, v)| == |s|
    ensures !HasKey(s, k) ==> Put(s, k, v) == s + [(k, v)]
    decreases |s|
  {
    if |s| > 0 && s[0].0 != k {
      PutPlacement(s[1..], k, v);
      assert HasKey(s, k) ==> HasKey(s[1..], k);
      assert !HasKey(s, k) ==> s == [s[0]] + s[1..];
    }
  }

  /** `m[k] = v` never creates a second entry for a key. */
  lemma {:induction false} PutKeysDistinct<V>(s: seq<(int, V)>, k: int, v: V)
    requires KeysDistinct(s)
    ensures KeysDistinct(Put(s, k, v))
    decreases |s|
  {
    if |s| > 0 && s[0].0 != k {
      var t := Put(s[1..], k, v);
      PutKeysDistinct(s[1..], k, v);
      forall i | 0 <= i < |t| ensures t[i].0 != s[0].0 {
        FindPut(s[1..], k, v, t[i].0);
        assert HasKey(t, t[i].0);
        assert !HasKey(s[1..], s[0].0);
      }
    }
  }

  /** A key is present after appending one entry iff it was present or is
      the appended key. */
  lemma {:induction false} HasKeyAppend<V>(s: seq<(int, V)>, e: (int, V), k: int)
    ensures HasKey(s + [e], k) <==> HasKey(s, k) || e.0 == k
  {
    if HasKey(s, k) {
      var i :| 0 <= i < |s| && s[i].0 == k;
      assert (s + [e])[i] == s[i];
    }
    assert (s + [e])[|s|] == e;
    if HasKey(s + [e], k) && !HasKey(s, k) {
      var i :| 0 <= i < |s + [e]| && (s + [e])[i].0 == k;
      assert i == |s|;
    }
  }

  /** Appending an entry: earlier entries win, the new one answers only for
      a key not seen before. */
  lemma {:induction false} FindAppend<V>(s: seq<(int, V)>, e: (int, V), k: int)
    ensures Find(s + [e], k) == if HasKey(s, k) then Find(s, k) else if e.0 == k then Some(e.1) else None
    decreases |s|
  {
    if |s| == 0 {
      assert s + [e] == [e];
    } else {
      assert (s + [e])[0] == s[0];
      assert (s + [e])[1..] == s[1..] + [e];
      FindAppend(s[1..], e, k);
      assert HasKey(s, k) <==> s[0].0 == k || HasKey(s[1..], k) by {
        HasKeyAppend([s[0]], s[0], k);
        assert HasKey(s[1..], k) ==> HasKey(s, k) by {
          if HasKey(s[1..], k) {
            var i :| 0 <= i < |s[1..]| && s[1..][i].0 == k;
            assert s[i + 1].0 == k;
          }
        }
      }
    }
  }

  /** With distinct keys, `Find` and entry membership say the same thing. */
  lemma {:induction false} FindIffEntry<V>(s: seq<(int, V)>, k: int, v: V)
    requires KeysDistinct(s)
    ensures Find(s, k) == Some(v) <==> (k, v) in s
  {
    if (k, v) in s {
      var i :| 0 <= i < |s| && s[i] == (k, v);
      assert HasKey(s, k);
      var j :| 0 <= j < |s| && s[j] == (k, Find(s, k).value);
      assert s[i].0 == s[j].0;
    }
  }

  function InsertByKey<V(!new)>(x: (int, V), s: seq<(int, V)>): (r: seq<(int, V)>)
    requires StrictlyAscending(s)
    requires !HasKey(s, x.0)
    ensures StrictlyAscending(r)
    ensures |r| == |s| + 1
    ensures forall p :: p in r <==> p == x || p in s
  {
    if |s| == 0 || x.0 < s[0].0 then [x] + s
    else
      assert !HasKey(s[1..], x.0);
      assert s[0].0 < x.0;
      var t := InsertByKey(x, s[1..]);
      assert forall p :: p in s <==> p == s[0] || p in s[1..];
      forall i | 0 <= i < |t| ensures s[0].0 < t[i].0 {
        assert t[i] in t;
        if t[i] != x {
          var j :| 0 <= j < |s[1..]| && s[1..][j] == t[i];
          assert s[j + 1] == t[i];
        }
      }
      [s[0]] + t
  }

  /** Insertion sort of the entries by key. */
  function SortByKey<V(!new)>(s: seq<(int, V)>): (r: seq<(int, V)>)
    requires KeysDistinct(s)
    ensures StrictlyAscending(r)
    ensures |r| == |s|
    ensures forall p :: p in r <==> p in s
  {
    if |s| == 0 then []
    else
      var t := SortByKey(s[1..]);
      assert forall p :: p in s <==> p == s[0] || p in s[1..];
      forall i | 0 <= i < |t| ensures t[i].0 != s[0].0 {
        assert t[i] in s[1..];
        var j :| 0 <= j < |s[1..]| && s[1..][j] == t[i];
        assert s[j + 1] == t[i];
      }
      InsertByKey(s[0], t)
  }

  lemma {:induction false} AscendingKeysDistinct<V>(s: seq<(int, V)>)
    requires StrictlyAscending(s)
    ensures KeysDistinct(s)
  {
  }

  /** Sorting keeps what every key maps to. */
  lemma {:induction false} FindSorted<V(!new)>(s: seq<(int, V)>, k: int)
    requires KeysDistinct(s)
    ensures Find(SortByKey(s), k) == Find(s, k)
  {
    var r := SortByKey(s);
    AscendingKeysDistinct(r);
    if Find(s, k).Some? {
      FindIffEntry(s, k, Find(s, k).value);
      FindIffEntry(r, k, Find(s, k).value);
    } else if Find(r, k).Some? {
      FindIffEntry(r, k, Find(r, k).value);
      FindIffEntry(s, k, Find(r, k).value);
    }
  }

  /** Two key-ascending entry lists with the same entries are the same list,
      so the order a JS engine enumerates integer keys in and the order an
      explicit sort by key gives cannot differ. */
  lemma {:induction false} AscendingUnique<V>(a: seq<(int, V)>, b: seq<(int, V)>)
    requires StrictlyAscending(a) && StrictlyAscending(b)
    requires forall p :: p in a <==> p in b
    ensures a == b
    decreases |a|
  {
    assert |a| > 0 ==> a[0] in b;
    assert |b| > 0 ==> b[0] in a;
    if |a| > 0 {
      assert a[0] in b;
      assert b[0] in a;
      assert a[0] == b[0] by {
        var i :| 0 <= i < |b| && b[i] == a[0];
        var j :| 0 <= j < |a| && a[j] == b[0];
        assert a[0].0 <= a[j].0;
        assert b[0].0 <= b[i].0;
      }
      forall p ensures p in a[1..] <==> p in b[1..] {
        if p in a[1..] {
          var i :| 1 <= i < |a| && a[i] == p;
          assert p in b;
          var j :| 0 <= j < |b| && b[j] == p;
          assert j != 0;
        }
        if p in b[1..] {
          var j :| 1 <= j < |b| && b[j] == p;
          assert p in a;
          var i :| 0 <= i < |a| && a[i] == p;
          assert i != 0;
        }
      }
      AscendingUnique(a[1..], b[1..]);
      assert a == [a[0]] + a[1..] && b == [b[0]] + b[1..];
    }
  }
}

=== FILE: crop_filter.dfy ===
/** The crop filter dialog: the sorted list of every crop in the dataset,
    the operator's exclusions loaded from the store, and the toggle that
    excludes a crop (a POST) or re-admits it (a DELETE). The server's answer
    is an input: a reply carrying the new record's id, or a failure. */
module CropFilter {
  import opened FormTypes
  import opened StringOrder
  import CropSelector

  /** What the dialog holds: the crops ticked, and the store id of each
      excluded crop's record. */
  datatype State = State(selected: set<string>, exceptionMap: map<string, int>)

  /** The request a click sends. */
  datatype Request = Post(crop: string) | Delete(exceptionId: int) | NoRequest

  /** The server's answer to a request: success with the record id in the
      body (a DELETE's body is not read), or any failure. */
  datatype Reply = Ok(id: int) | Failed

  /** Before the exclusions arrive nothing is ticked. */
  const Initial: State := State({}, map[])

  /** `cropList`: every crop key of every farm, once, in sort order. */
  function CropList(data: Dataset): (r: seq<string>)
    ensures Sorted(r)
    ensures forall c :: c in r <==> CropSelector.GrownSomewhere(data, c)
  {
    Sort(CropSelector.Distinct(CropSelector.AllCropKeys(data)))
  }

  /** The list names each crop once, and does not depend on the order the
      farms or their keys are enumerated in. */
  lemma {:induction false} CropListCanonical(data: Dataset, other: Dataset)
    requires forall c :: CropSelector.GrownSomewhere(data, c) <==> CropSelector.GrownSomewhere(other, c)
    ensures CropList(data) == CropList(other)
    ensures CropSelector.NoDuplicates(CropList(data))
  {
    SortedUnique(CropList(data), CropList(other));
    SortedDistinct(CropList(data));
  }

  /** `map[entry.crop] = entry.id` for each entry in order. */
  function ExceptionMap(entries: seq<ExceptionEntry>): (m: map<string, int>)
    ensures m.Keys == CropSelector.ExcludedCrops(entries)
  {
    if |entries| == 0 then map[]
    else
      var last := entries[|entries| - 1];
      var m := ExceptionMap(entries[..|entries| - 1]);
      assert entries == entries[..|entries| - 1] + [last];
      m[last.crop := last.id]
  }

  /** The last entry for a crop decides its id. */
  lemma {:induction false} LastEntryWins(entries: seq<ExceptionEntry>, i: int)
    requires 0 <= i < |entries|
    requires forall j :: i < j < |entries| ==> entries[j].crop != entries[i].crop
    ensures entries[i].crop in ExceptionMap(entries)
    ensures ExceptionMap(entries)[entries[i].crop] == entries[i].id
    decreases |entries|
  {
    var n := |entries| - 1;
    ExceptionMapSnoc(entries);
    if i < n {
      var prefix := entries[..n];
      assert prefix[i] == entries[i];
      forall j | i < j < |prefix| ensures prefix[j].crop != prefix[i].crop {
        assert prefix[j] == entries[j];
      }
      LastEntryWins(prefix, i);
    }
  }

  /** Appending an entry sets its crop's id and leaves the rest alone. */
  lemma {:induction false} ExceptionMapSnoc(entries: seq<ExceptionEntry>)
    requires |entries| > 0
    ensures ExceptionMap(entries)
            == ExceptionMap(entries[..|entries| - 1])[entries[|entries| - 1].crop := entries[|entries| - 1].id]
  {
  }

  /** Every crop is either ticked or excepted, never both. */
  predicate Consistent(s: State) {
    s.selected !! s.exceptionMap.Keys
  }

  /** The state once the exclusions have loaded: the map from the entries,
      and ticked exactly the listed crops that are not excluded. */
  function Load(cropList: seq<string>, entries: seq<ExceptionEntry>): (r: State)
    ensures forall c :: c in r.selected <==> c in cropList && c !in r.exceptionMap
    ensures Consistent(r)
  {
    var excluded := CropSelector.ExcludedCrops(entries);
    var kept := CropSelector.Filter(cropList, excluded);
    State((set c | c in kept), ExceptionMap(entries))
  }

  /** The request a click on `crop` sends: a POST for a ticked crop; for an
      unticked one a DELETE of its record, or nothing when no truthy id is
      known. */
  function RequestFor(s: State, crop: string): (q: Request)
    ensures crop in s.selected <==> q == Post(crop)
    ensures q.Delete? ==> crop in s.exceptionMap && s.exceptionMap[crop] == q.exceptionId && q.exceptionId != 0
    ensures q.NoRequest? <==> crop !in s.selected && (crop !in s.exceptionMap || s.exceptionMap[crop] == 0)
  {
    if crop in s.selected then Post(crop)
    else if crop in s.exceptionMap && s.exceptionMap[crop] != 0 then Delete(s.exceptionMap[crop])
    else NoRequest
  }

  /** Before the exclusions arrive a click finds the crop unticked and no
      record for it, so it sends nothing and changes nothing. */
  lemma ClickBeforeLoadSendsNothing(crop: string, reply: Reply)
    ensures RequestFor(Initial, crop) == NoRequest
    ensures Toggle(Initial, crop, reply) == Initial
  {
  }

  /** `toggleCrop`: the state after the click and the server's reply. */
  function Toggle(s: State, crop: string, reply: Reply): (r: State)
    ensures reply.Failed? || RequestFor(s, crop).NoRequest? ==> r == s
    ensures RequestFor(s, crop).Post? && reply.Ok? ==>
      crop !in r.selected && crop in r.exceptionMap && r.exceptionMap[crop] == reply.id
    ensures RequestFor(s, crop).Delete? && reply.Ok? ==>
      crop in r.selected && crop !in r.exceptionMap
    ensures forall c :: c != crop ==> (c in r.selected <==> c in s.selected)
    ensures forall c :: c != crop ==> (c in r.exceptionMap <==> c in s.exceptionMap)
    ensures forall c :: c != crop && c in r.exceptionMap ==> r.exceptionMap[c] == s.exceptionMap[c]
  {
    match (RequestFor(s, crop), reply)
    case (Post(_), Ok(id)) => State(s.selected - {crop}, s.exceptionMap[crop := id])
    case (Delete(_), Ok(_)) => State(s.selected + {crop}, s.exceptionMap - {crop})
    case _ => s
  }

  /** A toggle never ticks and excepts the same crop. */
  lemma {:induction false} ToggleKeepsConsistent(s: State, crop: string, reply: Reply)
    requires Consistent(s)
    ensures Consistent(Toggle(s, crop, reply))
  {
  }

  /** Clicks only ever tick crops of the list, so the ticked set stays
      within the list. */
  lemma {:induction false} ToggleStaysInList(s: State, cropList: seq<string>, crop: string, reply: Reply)
    requires forall c :: c in s.selected ==> c in cropList
    requires crop in cropList
    ensures forall c :: c in Toggle(s, crop, reply).selected ==> c in cropList
  {
  }

  /** Excluding a crop and re-admitting it restores the dialog, provided
      the store gave the new record a truthy id. */
  lemma {:induction false} ExcludeThenReadmit(s: State, crop: string, id: int, reply: Reply)
    requires Consistent(s) && crop in s.selected && id != 0 && reply.Ok?
    ensures Toggle(Toggle(s, crop, Ok(id)), crop, reply) == s
  {
    var t := Toggle(s, crop, Ok(id));
    assert RequestFor(t, crop) == Delete(id);
    assert t.selected + {crop} == s.selected;
    assert t.exceptionMap - {crop} == s.exceptionMap;
  }

  /** A record the store numbered 0 can never be deleted from the dialog: the
      crop stays excluded whatever is clicked afterwards. */
  lemma {:induction false} ZeroIdSticks(s: State, crop: string, reply: Reply)
    requires crop in s.selected
    ensures RequestFor(Toggle(s, crop, Ok(0)), crop) == NoRequest
    ensures Toggle(Toggle(s, crop, Ok(0)), crop, reply) == Toggle(s, crop, Ok(0))
  {
  }

  /** Right after loading, an excluded crop of the list can be re-admitted
      when every stored record has a truthy id: the DELETE is sent and its
      success ticks the crop. */
  lemma {:induction false} LoadThenReadmit(cropList: seq<string>, entries: seq<ExceptionEntry>, crop: string)
    requires crop in cropList
    requires crop in CropSelector.ExcludedCrops(entries)
    requires forall e :: e in entries ==> e.id != 0
    ensures RequestFor(Load(cropList, entries), crop).Delete?
    ensures crop in Toggle(Load(cropList, entries), crop, Ok(0)).selected
  {
    var i :| 0 <= i < |entries| && entries[i].crop == crop;
    var j := LastIndexOf(entries, crop, i);
    LastEntryWins(entries, j);
    assert entries[j] in entries;
  }

  /** The last index at or after `i` whose entry names the crop. */
  function LastIndexOf(entries: seq<ExceptionEntry>, crop: string, i: int): (j: int)
    requires 0 <= i < |entries| && entries[i].crop == crop
    ensures i <= j < |entries| && entries[j].crop == crop
    ensures forall k :: j < k < |entries| ==> entries[k].crop != crop
    decreases |entries| - i
  {
    if exists k :: i < k < |entries| && entries[k].crop == crop then
      var k :| i < k < |entries| && entries[k].crop == crop;
      LastIndexOf(entries, crop, k)
    else i
  }
}

=== FILE: crop_selector.dfy ===
/** The crop overview: the list of crops not excluded by the operator, and for
    each crop the area-weighted average of every period across all farms. */
module CropSelector {
  import opened FormTypes
  import opened AssocList
  import opened JsNumber

  // ---------------------------------------------------------------------
  // The crop list
  // ---------------------------------------------------------------------

  predicate NoDuplicates(s: seq<string>) {
    forall i, j :: 0 <= i < j < |s| ==> s[i] != s[j]
  }

  predicate GrownSomewhere(data: Dataset, crop: string) {
    exists i :: 0 <= i < |data| && HasCrop(data[i].1, crop)
  }

  /** Every `avg_weather_periods` key of every farm, in enumeration order. */
  function AllCropKeys(data: Dataset): (r: seq<string>)
    ensures forall c :: c in r <==> GrownSomewhere(data, c)
  {
    if |data| == 0 then []
    else
      var rest := AllCropKeys(data[1..]);
      assert forall c :: GrownSomewhere(data, c) <==> HasCrop(data[0].1, c) || GrownSomewhere(data[1..], c) by {
        forall c ensures GrownSomewhere(data, c) ==> HasCrop(data[0].1, c) || GrownSomewhere(data[1..], c) {
          if GrownSomewhere(data, c) {
            var i :| 0 <= i < |data| && HasCrop(data[i].1, c);
            if i > 0 { assert data[1..][i - 1] == data[i]; }
          }
        }
        forall c ensures GrownSomewhere(data[1..], c) ==> GrownSomewhere(data, c) {
          if GrownSomewhere(data[1..], c) {
            var i :| 0 <= i < |data[1..]| && HasCrop(data[1..][i].1, c);
            assert data[i + 1] == data[1..][i];
          }
        }
      }
      CropKeys(data[0].1) + rest
  }

  /** `Array.from(new Set(keys))`: each key once, at its first occurrence. */
  function Distinct(keys: seq<string>): (r: seq<string>)
    ensures NoDuplicates(r)
    ensures forall c :: c in r <==> c in keys
  {
    if |keys| == 0 then []
    else
      var d := Distinct(keys[..|keys| - 1]);
      var last := keys[|keys| - 1];
      assert keys == keys[..|keys| - 1] + [last];
      if last in d then d else d + [last]
  }

  function Filter(s: seq<string>, excluded: set<string>): (r: seq<string>)
    ensures forall c :: c in r <==> c in s && c !in excluded
    ensures NoDuplicates(s) ==> NoDuplicates(r)
  {
    if |s| == 0 then []
    else
      var rest := Filter(s[1..], excluded);
      assert forall c :: c in s <==> c == s[0] || c in s[1..];
      if s[0] in excluded then rest else [s[0]] + rest
  }

  /** The crops of the exception records (`new Set(exceptions.map(e => e.crop))`). */
  function ExcludedCrops(exceptions: seq<ExceptionEntry>): set<string> {
    set e | e in exceptions :: e.crop
  }

  /** The crops offered: every crop some farm has averages for, once each,
      minus every excluded crop. */
  function CropList(data: Dataset, exceptions: seq<ExceptionEntry>): (r: seq<string>)
    ensures NoDuplicates(r)
    ensures forall c :: c in r <==> GrownSomewhere(data, c) && c !in ExcludedCrops(exceptions)
  {
    Filter(Distinct(AllCropKeys(data)), ExcludedCrops(exceptions))
  }

  // ---------------------------------------------------------------------
  // Per-farm weight
  // ---------------------------------------------------------------------

  /** The summed `tillable_area` of the farm's fields that grow the crop. */
  function Weight(farm: Farm, crop: string): real {
    AreaSum(FieldsOfCrop(FieldValues(farm.fields), crop))
  }

  /** Independent statement of the weight: each field adds its area when it
      grows the crop and nothing otherwise. */
  function AreaGrowing(fields: seq<(int, Field)>, crop: string): real {
    if |fields| == 0 then 0.0
    else (if fields[0].1.cropName == crop then OrZero(fields[0].1.tillableArea) else 0.0)
         + AreaGrowing(fields[1..], crop)
  }

  lemma {:induction false} WeightIsAreaGrowing(farm: Farm, crop: string)
    ensures Weight(farm, crop) == AreaGrowing(farm.fields, crop)
  {
    AreaOfMatching(farm.fields, crop);
  }

  lemma {:induction false} AreaOfMatching(fields: seq<(int, Field)>, crop: string)
    ensures AreaSum(FieldsOfCrop(FieldValues(fields), crop)) == AreaGrowing(fields, crop)
    decreases |fields|
  {
    if |fields| > 0 {
      AreaOfMatching(fields[1..], crop);
      assert FieldValues(fields)[1..] == FieldValues(fields[1..]);
      assert FieldValues(fields) == [fields[0].1] + FieldValues(fields[1..]);
    }
  }

  // ---------------------------------------------------------------------
  // Accumulation, as the source does it
  // ---------------------------------------------------------------------

  /** A `periodMap` entry: the summed weight and the six value-times-weight
      sums of one `period_id`, and the name seen when it was created. */
  datatype Acc = Acc(
    area: real,
    normMeanTemp: real,
    normSumEffTemp: real,
    normPrecipitation: real,
    meanTemperature: real,
    sumEffectiveTemperature: real,
    sumPrecipitation: real,
    periodName: Option<string>)
  {
    function Sum(k: Metric): real {
      match k
      case NormMeanTemp => normMeanTemp
      case NormSumEffTemp => normSumEffTemp
      case NormPrecipitation => normPrecipitation
      case MeanTemperature => meanTemperature
      case SumEffectiveTemperature => sumEffectiveTemperature
      case SumPrecipitation => sumPrecipitation
    }
  }

  /** The entry created on first sight of a `period_id`. */
  function Fresh(p: WeatherPeriod): Acc {
    Acc(0.0, 0.0, 0.0, 0.0, 0.0, 0.0, 0.0, p.norms.periodName)
  }

  /** `value * w` for a reading that may be null. */
  function Weighted(p: WeatherPeriod, k: Metric, w: real): real {
    OrZero(Reading(p, k)) * w
  }

  function AddTo(a: Acc, p: WeatherPeriod, w: real): Acc {
    Acc(a.area + w,
        a.normMeanTemp + Weighted(p, NormMeanTemp, w),
        a.normSumEffTemp + Weighted(p, NormSumEffTemp, w),
        a.normPrecipitation + Weighted(p, NormPrecipitation, w),
        a.meanTemperature + Weighted(p, MeanTemperature, w),
        a.sumEffectiveTemperature + Weighted(p, SumEffectiveTemperature, w),
        a.sumPrecipitation + Weighted(p, SumPrecipitation, w),
        a.periodName)
  }

  /** One iteration of the inner `forEach`. */
  function AddPeriod(m: seq<(int, Acc)>, p: WeatherPeriod, w: real): seq<(int, Acc)> {
    Put(m, p.periodId, AddTo(Find(m, p.periodId).GetOr(Fresh(p)), p, w))
  }

  function AddPeriods(m: seq<(int, Acc)>, ps: seq<WeatherPeriod>, w: real): seq<(int, Acc)>
    decreases |ps|
  {
    if |ps| == 0 then m else AddPeriods(AddPeriod(m, ps[0], w), ps[1..], w)
  }

  datatype Totals = Totals(periodMap: seq<(int, Acc)>, totalArea: real)

  /** One iteration of the outer loop: a farm without an entry for the crop
      is skipped; any other farm adds its weight once and its periods. */
  function VisitFarm(t: Totals, farm: Farm, crop: string): Totals {
    var areaSum := Weight(farm, crop);
    match CropEntry(farm, crop)
    case None => t
    case Some(ps) => Totals(AddPeriods(t.periodMap, ps, areaSum), t.totalArea + areaSum)
  }

  function VisitFarms(data: Dataset, crop: string): Totals {
    if |data| == 0 then Totals([], 0.0)
    else VisitFarm(VisitFarms(data[..|data| - 1], crop), data[|data| - 1].1, crop)
  }

  // ---------------------------------------------------------------------
  // Reference sums
  // ---------------------------------------------------------------------

  /** One period of one farm, with that farm's weight. */
  datatype Contribution = Contribution(period: WeatherPeriod, weight: real)

  function WithWeight(ps: seq<WeatherPeriod>, w: real): (r: seq<Contribution>)
    ensures |r| == |ps|
    ensures forall i :: 0 <= i < |ps| ==> r[i] == Contribution(ps[i], w)
  {
    seq(|ps|, i requires 0 <= i < |ps| => Contribution(ps[i], w))
  }

  function FarmContributions(farm: Farm, crop: string): seq<Contribution> {
    match CropEntry(farm, crop)
    case None => []
    case Some(ps) => WithWeight(ps, Weight(farm, crop))
  }

  /** Every (period, weight) pair the crop's rollup sees, farm by farm. */
  function Contributions(data: Dataset, crop: string): seq<Contribution> {
    if |data| == 0 then []
    else Contributions(data[..|data| - 1], crop) + FarmContributions(data[|data| - 1].1, crop)
  }

  predicate Contributes(cs: seq<Contribution>, id: int) {
    exists i :: 0 <= i < |cs| && cs[i].period.periodId == id
  }

  /** Summed weight of the contributions with this `period_id`. */
  function AreaOf(cs: seq<Contribution>, id: int): real {
    if |cs| == 0 then 0.0
    else (if cs[0].period.periodId == id then cs[0].weight else 0.0) + AreaOf(cs[1..], id)
  }

  /** Summed value-times-weight of one reading over the contributions with
      this `period_id`. */
  function SumOf(cs: seq<Contribution>, id: int, k: Metric): real {
    if |cs| == 0 then 0.0
    else (if cs[0].period.periodId == id then Weighted(cs[0].period, k, cs[0].weight) else 0.0)
         + SumOf(cs[1..], id, k)
  }

  /** The name carried by the first contribution with this `period_id`. */
  function FirstName(cs: seq<Contribution>, id: int): Option<string> {
    if |cs| == 0 then None
    else if cs[0].period.periodId == id then cs[0].period.norms.periodName
    else FirstName(cs[1..], id)
  }

  /** What the `periodMap` entry of `id` must hold, if there is one. */
  function Expected(cs: seq<Contribution>, id: int): Option<Acc> {
    if Contributes(cs, id) then
      Some(Acc(AreaOf(cs, id),
               SumOf(cs, id, NormMeanTemp), SumOf(cs, id, NormSumEffTemp), SumOf(cs, id, NormPrecipitation),
               SumOf(cs, id, MeanTemperature), SumOf(cs, id, SumEffectiveTemperature), SumOf(cs, id, SumPrecipitation),
               FirstName(cs, id)))
    else None
  }

  /** The scope's total: each farm that has the crop adds its weight once. */
  function TotalArea(data: Dataset, crop: string): real {
    if |data| == 0 then 0.0
    else (if HasCrop(data[0].1, crop) then Weight(data[0].1, crop) else 0.0) + TotalArea(data[1..], crop)
  }

  // ---------------------------------------------------------------------
  // The accumulation meets the reference sums
  // ---------------------------------------------------------------------

  /** How one more contribution changes the entry of `id`. */
  function Step(o: Option<Acc>, c: Contribution, id: int): Option<Acc> {
    if c.period.periodId != id then o
    else Some(AddTo(o.GetOr(Fresh(c.period)), c.period, c.weight))
  }

  lemma {:induction false} NothingContributed(cs: seq<Contribution>, id: int)
    requires !Contributes(cs, id)
    ensures AreaOf(cs, id) == 0.0
    ensures forall k :: SumOf(cs, id, k) == 0.0
    decreases |cs|
  {
    if |cs| > 0 {
      assert !Contributes(cs[1..], id) by {
        forall i | 0 <= i < |cs[1..]| ensures cs[1..][i].period.periodId != id {
          assert cs[1..][i] == cs[i + 1];
        }
      }
      NothingContributed(cs[1..], id);
    }
  }

  lemma {:induction false} SumsSnoc(cs: seq<Contribution>, c: Contribution, id: int)
    ensures AreaOf(cs + [c], id) == AreaOf(cs, id) + (if c.period.periodId == id then c.weight else 0.0)
    ensures forall k :: SumOf(cs + [c], id, k)
                        == SumOf(cs, id, k) + (if c.period.periodId == id then Weighted(c.period, k, c.weight) else 0.0)
    ensures FirstName(cs + [c], id) == if Contributes(cs, id) then FirstName(cs, id) else FirstName([c], id)
    ensures Contributes(cs + [c], id) <==> Contributes(cs, id) || c.period.periodId == id
    decreases |cs|
  {
    if |cs| == 0 {
      assert [] + [c] == [c];
    } else {
      SumsSnoc(cs[1..], c, id);
      assert (cs + [c])[1..] == cs[1..] + [c];
      assert Contributes(cs, id) <==> cs[0].period.periodId == id || Contributes(cs[1..], id) by {
        if Contributes(cs, id) {
          var i :| 0 <= i < |cs| && cs[i].period.periodId == id;
          if i > 0 { assert cs[1..][i - 1] == cs[i]; }
        }
        if Contributes(cs[1..], id) {
          var i :| 0 <= i < |cs[1..]| && cs[1..][i].period.periodId == id;
          assert cs[i + 1] == cs[1..][i];
        }
      }
      assert (cs + [c])[|cs|] == c;
      assert forall i :: 0 <= i < |cs| ==> (cs + [c])[i] == cs[i];
    }
  }

  /** Adding one contribution to the reference moves it exactly as
      `AddPeriod` moves the `periodMap` entry. */
  lemma {:induction false} ExpectedSnoc(cs: seq<Contribution>, c: Contribution, id: int)
    ensures Expected(cs + [c], id) == Step(Expected(cs, id), c, id)
  {
    SumsSnoc(cs, c, id);
    if !Contributes(cs, id) {
      NothingContributed(cs, id);
    }
  }

  lemma {:induction false} AddPeriodStep(m: seq<(int, Acc)>, p: WeatherPeriod, w: real, id: int)
    ensures Find(AddPeriod(m, p, w), id) == Step(Find(m, id), Contribution(p, w), id)
  {
    FindPut(m, p.periodId, AddTo(Find(m, p.periodId).GetOr(Fresh(p)), p, w), id);
  }

  /** `periodMap` tracks the reference for every id, one period at a time. */
  ghost predicate Tracks(m: seq<(int, Acc)>, cs: seq<Contribution>) {
    && KeysDistinct(m)
    && forall id :: Find(m, id) == Expected(cs, id)
  }

  lemma {:induction false} AddPeriodTracks(m: seq<(int, Acc)>, p: WeatherPeriod, w: real, cs: seq<Contribution>)
    requires Tracks(m, cs)
    ensures Tracks(AddPeriod(m, p, w), cs + [Contribution(p, w)])
  {
    var c := Contribution(p, w);
    PutKeysDistinct(m, p.periodId, AddTo(Find(m, p.periodId).GetOr(Fresh(p)), p, w));
    forall id ensures Find(AddPeriod(m, p, w), id) == Expected(cs + [c], id) {
      AddPeriodStep(m, p, w, id);
      ExpectedSnoc(cs, c, id);
    }
  }

  lemma {:induction false} AddPeriodsTracks(m: seq<(int, Acc)>, ps: seq<WeatherPeriod>, w: real, cs: seq<Contribution>)
    requires Tracks(m, cs)
    ensures Tracks(AddPeriods(m, ps, w), cs + WithWeight(ps, w))
    decreases |ps|
  {
    if |ps| == 0 {
      assert cs + WithWeight(ps, w) == cs;
    } else {
      var c := Contribution(ps[0], w);
      AddPeriodTracks(m, ps[0], w, cs);
      AddPeriodsTracks(AddPeriod(m, ps[0], w), ps[1..], w, cs + [c]);
      assert cs + [c] + WithWeight(ps[1..], w) == cs + WithWeight(ps, w);
    }
  }

  lemma {:induction false} TotalAreaSnoc(data: Dataset, x: (string, Farm), crop: string)
    ensures TotalArea(data + [x], crop)
            == TotalArea(data, crop) + (if HasCrop(x.1, crop) then Weight(x.1, crop) else 0.0)
    decreases |data|
  {
    if |data| > 0 {
      TotalAreaSnoc(data[1..], x, crop);
      assert (data + [x])[1..] == data[1..] + [x];
    } else {
      assert [] + [x] == [x];
    }
  }

  /** After visiting any prefix of the farms, every `periodMap` entry and
      the running total agree with the reference sums. */
  lemma {:induction false} VisitFarmTracks(t: Totals, farm: Farm, crop: string, cs: seq<Contribution>)
    requires Tracks(t.periodMap, cs)
    ensures Tracks(VisitFarm(t, farm, crop).periodMap, cs + FarmContributions(farm, crop))
    ensures VisitFarm(t, farm, crop).totalArea
            == t.totalArea + (if HasCrop(farm, crop) then Weight(farm, crop) else 0.0)
  {
    match CropEntry(farm, crop)
    case None =>
      assert cs + FarmContributions(farm, crop) == cs;
    case Some(ps) =>
      AddPeriodsTracks(t.periodMap, ps, Weight(farm, crop), cs);
  }

  /** After visiting any prefix of the farms, every `periodMap` entry and
      the running total agree with the reference sums. */
  lemma {:induction false} VisitFarmsInvariant(data: Dataset, crop: string)
    ensures Tracks(VisitFarms(data, crop).periodMap, Contributions(data, crop))
    ensures VisitFarms(data, crop).totalArea == TotalArea(data, crop)
    decreases |data|
  {
    if |data| > 0 {
      var init := data[..|data| - 1];
      var last := data[|data| - 1];
      VisitFarmsInvariant(init, crop);
      VisitFarmTracks(VisitFarms(init, crop), last.1, crop, Contributions(init, crop));
      TotalAreaSnoc(init, last, crop);
      assert init + [last] == data;
    }
  }

  // ---------------------------------------------------------------------
  // Finalisation
  // ---------------------------------------------------------------------

  /** `entry.period_name || null`: an empty name is shown as no name. */
  function NameOut(n: Option<string>): (r: Option<string>)
    ensures r.Some? ==> n == r && r.value != ""
    ensures n.Some? && n.value != "" ==> r == n
  {
    if n == Some("") then None else n
  }

  /** The area-weighted mean of one reading, rounded as `+x.toFixed(1)`; a
      period with no accumulated area has no mean and is reported as null. */
  function FinalValue(sum: real, area: real): (r: Option<real>)
    ensures r.None? <==> area == 0.0
    ensures r.Some? ==> sum / area - 0.05 <= r.value <= sum / area + 0.05
  {
    if area == 0.0 then None
    else
      ToFixed1Close(sum / area);
      Some(ToFixed1(sum / area))
  }

  /** The same division as the source writes it, with no guard. */
  function FinalValueAsWritten(sum: real, area: real): Number {
    ToFixed1Number(Divide(sum, area))
  }

  function FinalPeriod(crop: string, id: nat, a: Acc): WeatherPeriod {
    WeatherPeriod(
      None, None,
      Norms(crop, 0.0, 0, 0.0,
            FinalValue(a.normMeanTemp, a.area),
            FinalValue(a.normPrecipitation, a.area),
            FinalValue(a.normSumEffTemp, a.area),
            id, NameOut(a.periodName)),
      id,
      Weather(0.0,
              FinalValue(a.meanTemperature, a.area),
              FinalValue(a.sumEffectiveTemperature, a.area),
              FinalValue(a.sumPrecipitation, a.area)))
  }

  datatype Aggregate = Aggregate(periods: seq<WeatherPeriod>, totalArea: real)

  /** An output period is the rollup of its `period_id`: every reading is the
      rounded weighted mean of the contributions with that id, the name is
      the first one seen, and the fields the rollup cannot know are zero or
      null. */
  predicate Summarises(p: WeatherPeriod, crop: string, cs: seq<Contribution>) {
    var id := p.periodId;
    && Contributes(cs, id)
    && (forall k :: Reading(p, k) == FinalValue(SumOf(cs, id, k), AreaOf(cs, id)))
    && p.norms.periodName == NameOut(FirstName(cs, id))
    && p.norms.periodId == id && p.norms.crop == crop
    && p.dateStart.None? && p.dateEnd.None?
    && p.norms.daysInPeriod == 0.0 && p.norms.minTemp == 0.0 && p.norms.id == 0
    && p.weather.effectiveTemperatureBase == 0.0
  }

  lemma {:induction false} FinalPeriodSummarises(crop: string, id: nat, a: Acc, cs: seq<Contribution>)
    requires Expected(cs, id) == Some(a)
    ensures Summarises(FinalPeriod(crop, id, a), crop, cs)
  {
    var p := FinalPeriod(crop, id, a);
    forall k ensures Reading(p, k) == FinalValue(SumOf(cs, id, k), AreaOf(cs, id)) {
    }
  }

  /** The sorted `periodMap` entries are exactly the contributing ids, each
      with its reference entry. */
  lemma {:induction false} SortedEntriesExpected(m: seq<(int, Acc)>, cs: seq<Contribution>)
    requires Tracks(m, cs)
    ensures forall i :: 0 <= i < |SortByKey(m)| ==>
              SortByKey(m)[i].0 >= 0 && Expected(cs, SortByKey(m)[i].0) == Some(SortByKey(m)[i].1)
    ensures forall id :: Contributes(cs, id) ==> exists i :: 0 <= i < |SortByKey(m)| && SortByKey(m)[i].0 == id
  {
    var sorted := SortByKey(m);
    forall i | 0 <= i < |sorted| ensures sorted[i].0 >= 0 && Expected(cs, sorted[i].0) == Some(sorted[i].1) {
      assert sorted[i] in m;
      FindIffEntry(m, sorted[i].0, sorted[i].1);
      var j :| 0 <= j < |cs| && cs[j].period.periodId == sorted[i].0;
    }
    forall id | Contributes(cs, id) ensures exists i :: 0 <= i < |sorted| && sorted[i].0 == id {
      var a := Find(m, id).value;
      assert (id, a) in sorted;
    }
  }

  /** The `Object.entries(periodMap).map(...)` step over key-sorted entries. */
  function FinalPeriods(crop: string, sorted: seq<(int, Acc)>): (r: seq<WeatherPeriod>)
    requires forall i :: 0 <= i < |sorted| ==> sorted[i].0 >= 0
    requires StrictlyAscending(sorted)
    ensures |r| == |sorted|
    ensures forall i :: 0 <= i < |r| ==> r[i] == FinalPeriod(crop, sorted[i].0, sorted[i].1)
    ensures forall i, j :: 0 <= i < j < |r| ==> r[i].periodId < r[j].periodId
  {
    seq(|sorted|, i requires 0 <= i < |sorted| => FinalPeriod(crop, sorted[i].0, sorted[i].1))
  }

  /** Finalising entries that each hold their id's reference sums, and
      that cover every contributing id, gives periods that summarise the
      contributions and miss none of them. */
  lemma {:induction false} FinalPeriodsSummarise(crop: string, sorted: seq<(int, Acc)>, cs: seq<Contribution>)
    requires forall i :: 0 <= i < |sorted| ==> sorted[i].0 >= 0 && Expected(cs, sorted[i].0) == Some(sorted[i].1)
    requires forall id :: Contributes(cs, id) ==> exists i :: 0 <= i < |sorted| && sorted[i].0 == id
    requires StrictlyAscending(sorted)
    ensures forall i :: 0 <= i < |FinalPeriods(crop, sorted)| ==> Summarises(FinalPeriods(crop, sorted)[i], crop, cs)
    ensures forall id: nat :: Contributes(cs, id) ==>
              exists i :: 0 <= i < |FinalPeriods(crop, sorted)| && FinalPeriods(crop, sorted)[i].periodId == id
  {
    var periods := FinalPeriods(crop, sorted);
    forall i | 0 <= i < |periods| ensures Summarises(periods[i], crop, cs) {
      FinalPeriodSummarises(crop, sorted[i].0, sorted[i].1, cs);
    }
    forall id: nat | Contributes(cs, id) ensures exists i :: 0 <= i < |periods| && periods[i].periodId == id {
      var i :| 0 <= i < |sorted| && sorted[i].0 == id;
      assert periods[i].periodId == id;
    }
  }

  /** `calculateWeightedAverages(crop)`. */
  function CalculateWeightedAverages(data: Dataset, crop: string): (r: Aggregate)
    ensures r.totalArea == TotalArea(data, crop)
    ensures forall i, j :: 0 <= i < j < |r.periods| ==> r.periods[i].periodId < r.periods[j].periodId
    ensures forall i :: 0 <= i < |r.periods| ==> Summarises(r.periods[i], crop, Contributions(data, crop))
    ensures forall id: nat :: Contributes(Contributions(data, crop), id) ==>
              exists i :: 0 <= i < |r.periods| && r.periods[i].periodId == id
  {
    var t := VisitFarms(data, crop);
    VisitFarmsInvariant(data, crop);
    var cs := Contributions(data, crop);
    var sorted := SortByKey(t.periodMap);
    SortedEntriesExpected(t.periodMap, cs);
    var periods := FinalPeriods(crop, sorted);
    FinalPeriodsSummarise(crop, sorted, cs);
    Aggregate(periods, t.totalArea)
  }

  // ---------------------------------------------------------------------
  // Properties of the rollup
  // ---------------------------------------------------------------------

  /** A farm that has no averages for the crop changes neither the total
      nor any period. */
  lemma {:induction false} FarmWithoutCropIgnored(data: Dataset, name: string, farm: Farm, crop: string)
    requires !HasCrop(farm, crop)
    ensures CalculateWeightedAverages(data + [(name, farm)], crop) == CalculateWeightedAverages(data, crop)
  {
    assert (data + [(name, farm)])[..|data|] == data;
  }

  /** The weighted sum lies between the least and greatest contributing
      value times the area, when weights are non-negative. */
  lemma {:induction false} SumBetweenBounds(cs: seq<Contribution>, id: int, k: Metric, lo: real, hi: real)
    requires forall i :: 0 <= i < |cs| ==> cs[i].weight >= 0.0
    requires forall i :: 0 <= i < |cs| && cs[i].period.periodId == id ==>
               lo <= OrZero(Reading(cs[i].period, k)) <= hi
    ensures Within(lo, hi, AreaOf(cs, id), SumOf(cs, id, k))
    decreases |cs|
  {
    if |cs| == 0 {
      assert lo * 0.0 == 0.0 == hi * 0.0;
    } else {
      var rest := cs[1..];
      assert forall i :: 0 <= i < |rest| ==> rest[i] == cs[i + 1];
      SumBetweenBounds(rest, id, k, lo, hi);
      var matches := cs[0].period.periodId == id;
      var v := OrZero(Reading(cs[0].period, k));
      var w := if matches then cs[0].weight else 0.0;
      var x := if matches then Weighted(cs[0].period, k, cs[0].weight) else 0.0;
      BoundsStep(lo, hi, v, w, x, AreaOf(rest, id), SumOf(rest, id, k));
    }
  }

  /** `sum` lies between `lo` and `hi` times `area`. */
  predicate Within(lo: real, hi: real, area: real, sum: real) {
    lo * area <= sum <= hi * area
  }

  /** One step of the bound: adding a contribution of weight `w` and value
      `v` to a sum already within `[lo*a, hi*a]`. */
  lemma BoundsStep(lo: real, hi: real, v: real, w: real, x: real, a: real, s: real)
    requires w >= 0.0 && x == v * w && (w == 0.0 || lo <= v <= hi)
    requires Within(lo, hi, a, s)
    ensures Within(lo, hi, w + a, x + s)
  {
    if w != 0.0 {
      assert (v - lo) * w >= 0.0 && (hi - v) * w >= 0.0;
    }
    Distribute(lo, w, a);
    Distribute(hi, w, a);
  }

  lemma Distribute(c: real, a: real, b: real)
    ensures c * (a + b) == c * a + c * b
  {
  }

  /** Each reported reading is a weighted mean: it stays within the range of
      the contributing values, up to the rounding to one decimal. */
  lemma {:induction false} MeanWithinRange(data: Dataset, crop: string, i: int, k: Metric, lo: real, hi: real)
    requires 0 <= i < |CalculateWeightedAverages(data, crop).periods|
    requires forall j :: 0 <= j < |Contributions(data, crop)| ==> Contributions(data, crop)[j].weight >= 0.0
    requires forall j :: 0 <= j < |Contributions(data, crop)|
               && Contributions(data, crop)[j].period.periodId == CalculateWeightedAverages(data, crop).periods[i].periodId
               ==> lo <= OrZero(Reading(Contributions(data, crop)[j].period, k)) <= hi
    ensures var v := Reading(CalculateWeightedAverages(data, crop).periods[i], k);
            v.Some? ==> lo - 0.05 <= v.value <= hi + 0.05
  {
    var r := CalculateWeightedAverages(data, crop);
    assert Summarises(r.periods[i], crop, Contributions(data, crop));
    SummaryWithinRange(r.periods[i], crop, Contributions(data, crop), k, lo, hi);
  }

  lemma {:induction false} SummaryWithinRange(p: WeatherPeriod, crop: string, cs: seq<Contribution>, k: Metric, lo: real, hi: real)
    requires Summarises(p, crop, cs)
    requires forall j :: 0 <= j < |cs| ==> cs[j].weight >= 0.0
    requires forall j :: 0 <= j < |cs| && cs[j].period.periodId == p.periodId ==>
               lo <= OrZero(Reading(cs[j].period, k)) <= hi
    ensures Reading(p, k).Some? ==> lo - 0.05 <= Reading(p, k).value <= hi + 0.05
  {
    var area := AreaOf(cs, p.periodId);
    var sum := SumOf(cs, p.periodId, k);
    SumBetweenBounds(cs, p.periodId, k, lo, hi);
    AreaNonNegative(cs, p.periodId);
    if area != 0.0 {
      DivideWithin(lo, hi, area, sum);
    }
  }

  lemma DivideWithin(lo: real, hi: real, area: real, sum: real)
    requires area > 0.0 && Within(lo, hi, area, sum)
    ensures lo <= sum / area <= hi
  {
    assert lo == lo * area / area && hi == hi * area / area;
  }

  lemma {:induction false} AreaNonNegative(cs: seq<Contribution>, id: int)
    requires forall i :: 0 <= i < |cs| ==> cs[i].weight >= 0.0
    ensures AreaOf(cs, id) >= 0.0
    decreases |cs|
  {
    if |cs| > 0 {
      assert forall i :: 0 <= i < |cs[1..]| ==> cs[1..][i] == cs[i + 1];
      AreaNonNegative(cs[1..], id);
    }
  }

  /** Where the accumulated area is non-zero, the source's unguarded division
      gives exactly the value reported here. */
  lemma GuardAgreesWhereAreaNonZero(sum: real, area: real)
    requires area != 0.0
    ensures FinalValueAsWritten(sum, area) == Finite(FinalValue(sum, area).value)
  {
  }

  /** A farm that has the crop's averages but no field growing the crop still
      creates its periods, with zero area: the source then divides 0 by 0 and
      shows NaN, where the guarded rollup reports null. */
  lemma ZeroAreaPeriodIsNaN()
    ensures var p := WeatherPeriod(None, None, Norms("wheat", 10.0, 1, 5.0, Some(12.0), Some(30.0), Some(400.0), 1, Some("sowing")),
                                   1, Weather(5.0, Some(11.0), Some(380.0), Some(25.0)));
            var data := [("farm", Farm([("wheat", [p])], []))];
            var cs := Contributions(data, "wheat");
            && AreaOf(cs, 1) == 0.0
            && FinalValueAsWritten(SumOf(cs, 1, NormMeanTemp), AreaOf(cs, 1)) == NaN
            && (exists i :: 0 <= i < |CalculateWeightedAverages(data, "wheat").periods|
                  && CalculateWeightedAverages(data, "wheat").periods[i].periodId == 1)
            && (forall i :: 0 <= i < |CalculateWeightedAverages(data, "wheat").periods| ==>
                  Reading(CalculateWeightedAverages(data, "wheat").periods[i], NormMeanTemp) == None)
  {
    var p := WeatherPeriod(None, None, Norms("wheat", 10.0, 1, 5.0, Some(12.0), Some(30.0), Some(400.0), 1, Some("sowing")),
                           1, Weather(5.0, Some(11.0), Some(380.0), Some(25.0)));
    var farm := Farm([("wheat", [p])], []);
    var data := [("farm", farm)];
    assert CropKeys(farm) == ["wheat"];
    assert CropEntry(farm, "wheat") == Some([p]);
    assert FieldValues(farm.fields) == [];
    assert Weight(farm, "wheat") == 0.0;
    assert FarmContributions(farm, "wheat") == [Contribution(p, 0.0)];
    assert data[..0] == [];
    assert Contributions(data[..0], "wheat") == [];
    var cs := Contributions(data, "wheat");
    assert cs == Contributions(data[..0], "wheat") + FarmContributions(farm, "wheat");
    assert cs == [Contribution(p, 0.0)];
    assert AreaOf(cs, 1) == 0.0;
    assert SumOf(cs, 1, NormMeanTemp) == 0.0;
    var r := CalculateWeightedAverages(data, "wheat");
    assert Contributes(cs, 1);
    forall j | 0 <= j < |r.periods| ensures Reading(r.periods[j], NormMeanTemp) == None {
      assert Summarises(r.periods[j], "wheat", cs);
      assert AreaOf(cs, r.periods[j].periodId) == 0.0;
    }
  }
}

=== FILE: farm_card_chart.dfy ===
/** The two pies on a farm card: how much of the effective-temperature and
    precipitation norms the periods have received, as a capped percentage and
    as a "received / still missing" split rounded to one decimal. */
module FarmCardChart {
  import opened FormTypes
  import JsNumber

  /** The four totals over a card's periods. */
  datatype Totals = Totals(normEffTemp: real, actualEffTemp: real, normPrecip: real, actualPrecip: real)

  /** The two slices of a pie: received so far, and still missing. */
  datatype Slices = Slices(fact: real, remaining: real)

  function Min(a: real, b: real): real { if a <= b then a else b }
  function Max(a: real, b: real): real { if a >= b then a else b }

  /** The totals of a single period: its four readings, a null one read as
      0 (`null + x` is `x` in JavaScript). */
  function PeriodTotals(p: WeatherPeriod): Totals {
    Totals(OrZero(Reading(p, NormSumEffTemp)), OrZero(Reading(p, SumEffectiveTemperature)),
           OrZero(Reading(p, NormPrecipitation)), OrZero(Reading(p, SumPrecipitation)))
  }

  /** The plain sums over every period of the card: nothing for no periods,
      a lone period's own readings, and (`CardTotalsAppend`) additive over
      concatenation, so each total is the sum over all periods. */
  function CardTotals(periods: seq<WeatherPeriod>): (t: Totals)
    ensures |periods| == 0 ==> t == Totals(0.0, 0.0, 0.0, 0.0)
    ensures |periods| == 1 ==> t == PeriodTotals(periods[0])
  {
    Totals(PeriodsTotal(periods, NormSumEffTemp), PeriodsTotal(periods, SumEffectiveTemperature),
           PeriodsTotal(periods, NormPrecipitation), PeriodsTotal(periods, SumPrecipitation))
  }

  /** `Math.min(actual / norm * 100, 100)`. A zero norm is not guarded: the
      division gives NaN or an infinity, which `Math.min` passes on except
      that +Infinity is capped to 100. */
  function GetPercent(actual: real, norm: real): (r: JsNumber.Number)
    ensures r.Finite? ==> r.value <= 100.0
    ensures !r.PosInfinity?
    ensures norm != 0.0 ==> r.Finite?
    ensures r.NaN? <==> norm == 0.0 && actual == 0.0
  {
    match JsNumber.Divide(actual, norm)
    case Finite(q) => JsNumber.Finite(Min(q * 100.0, 100.0))
    case NaN => JsNumber.NaN
    case PosInfinity => JsNumber.Finite(100.0)
    case NegInfinity => JsNumber.NegInfinity
  }

  /** `[min(actual, norm), max(norm - actual, 0)]` before rounding. */
  function PieSlices(actual: real, norm: real): (s: Slices)
    ensures s.fact + s.remaining == norm
    ensures s.fact <= actual && s.fact <= norm
    ensures s.fact == actual || s.fact == norm
    ensures s.remaining == 0.0 <==> actual >= norm
  {
    Slices(Min(actual, norm), Max(norm - actual, 0.0))
  }

  /** The slices as the pie draws them, `Math.round(x * 10) / 10` each: a
      whole number of tenths, above the raw slice less half a tenth and at
      most the raw slice plus half a tenth. Only one number of tenths lies in
      that window, so these clauses pin each slice (`MathRound1Unique`). */
  function RoundedSlices(actual: real, norm: real): (s: Slices)
    ensures JsNumber.WholeTenths(s.fact) && JsNumber.WholeTenths(s.remaining)
    ensures PieSlices(actual, norm).fact - 0.05 < s.fact <= PieSlices(actual, norm).fact + 0.05
    ensures PieSlices(actual, norm).remaining - 0.05 < s.remaining <= PieSlices(actual, norm).remaining + 0.05
  {
    var raw := PieSlices(actual, norm);
    JsNumber.MathRound1Close(raw.fact);
    JsNumber.MathRound1Close(raw.remaining);
    JsNumber.MathRound1Tenths(raw.fact);
    JsNumber.MathRound1Tenths(raw.remaining);
    Slices(JsNumber.MathRound1(raw.fact), JsNumber.MathRound1(raw.remaining))
  }

  /** With a positive norm the percentage is the capped ratio, and it is full
      exactly when the norm has been reached. */
  lemma PercentFullIffNormReached(actual: real, norm: real)
    requires norm > 0.0
    ensures GetPercent(actual, norm) == JsNumber.Finite(Min(actual / norm * 100.0, 100.0))
    ensures GetPercent(actual, norm) == JsNumber.Finite(100.0) <==> actual >= norm
  {
    var q := actual / norm;
    assert q * norm == actual;
    if q >= 1.0 {
      assert q * norm >= 1.0 * norm;
    } else {
      assert q * norm < 1.0 * norm;
    }
  }

  /** A zero norm with something received draws a full pie; with nothing
      received the percentage is NaN. */
  lemma ZeroNormPercent(actual: real)
    ensures actual > 0.0 ==> GetPercent(actual, 0.0) == JsNumber.Finite(100.0)
    ensures actual == 0.0 ==> GetPercent(actual, 0.0).NaN?
    ensures actual < 0.0 ==> GetPercent(actual, 0.0).NegInfinity?
  {
  }

  /** Non-negative totals give non-negative slices, and the received slice is
      the whole norm exactly when nothing remains. */
  lemma SlicesNonNegative(actual: real, norm: real)
    requires actual >= 0.0 && norm >= 0.0
    ensures PieSlices(actual, norm).fact >= 0.0 && PieSlices(actual, norm).remaining >= 0.0
    ensures PieSlices(actual, norm).fact == norm <==> PieSlices(actual, norm).remaining == 0.0
  {
  }

  /** The fact slice is the share of the norm the percentage reports: with
      a positive norm, fact / norm · 100 is exactly `getPercent`. */
  lemma FactSliceIsPercent(actual: real, norm: real)
    requires norm > 0.0
    ensures GetPercent(actual, norm) == JsNumber.Finite(PieSlices(actual, norm).fact / norm * 100.0)
  {
    PercentFullIffNormReached(actual, norm);
    var q := actual / norm;
    assert q * norm == actual;
    if actual <= norm {
      assert q * norm <= 1.0 * norm;
    } else {
      assert norm / norm == 1.0;
      assert q * norm > 1.0 * norm;
    }
  }

  /** Rounding each slice keeps the pie within a tenth of the norm, and
      keeps non-negative slices non-negative. */
  lemma RoundedSlicesClose(actual: real, norm: real)
    requires actual >= 0.0 && norm >= 0.0
    ensures norm - 0.1 < RoundedSlices(actual, norm).fact + RoundedSlices(actual, norm).remaining <= norm + 0.1
    ensures RoundedSlices(actual, norm).fact >= 0.0 && RoundedSlices(actual, norm).remaining >= 0.0
  {
    var raw := PieSlices(actual, norm);
    JsNumber.MathRound1Close(raw.fact);
    JsNumber.MathRound1Close(raw.remaining);
    JsNumber.HalfUp1NonNegative(raw.fact);
    JsNumber.HalfUp1NonNegative(raw.remaining);
  }

  /** The card's received totals never count a period twice: the totals of
      two period lists shown one after the other add up. */
  lemma {:induction false} CardTotalsAppend(a: seq<WeatherPeriod>, b: seq<WeatherPeriod>)
    ensures CardTotals(a + b).normEffTemp == CardTotals(a).normEffTemp + CardTotals(b).normEffTemp
    ensures CardTotals(a + b).actualEffTemp == CardTotals(a).actualEffTemp + CardTotals(b).actualEffTemp
    ensures CardTotals(a + b).normPrecip == CardTotals(a).normPrecip + CardTotals(b).normPrecip
    ensures CardTotals(a + b).actualPrecip == CardTotals(a).actualPrecip + CardTotals(b).actualPrecip
  {
    PeriodsTotalAppend(a, b, NormSumEffTemp);
    PeriodsTotalAppend(a, b, SumEffectiveTemperature);
    PeriodsTotalAppend(a, b, NormPrecipitation);
    PeriodsTotalAppend(a, b, SumPrecipitation);
  }
}

=== FILE: farm_selector.dfy ===
/** The farm cards shown for one crop: which farms are listed, which period
    list each card summarises (the selected field's own periods or the farm's
    average for the crop) and the card's title. */
module FarmSelector {
  import opened FormTypes

  /** Text between the farm name and the field name in a card title. */
  const FieldTitleSeparator: string := " — поле: "

  datatype Card = Card(farmName: string, title: string, periods: seq<WeatherPeriod>)

  /** `Object.entries(data).filter(...)`: the farms that carry the crop as an
      `avg_weather_periods` key, in enumeration order. */
  function FarmsWithCrop(data: Dataset, crop: string): (r: Dataset)
    ensures |r| <= |data|
    ensures forall e :: e in r <==> e in data && HasCrop(e.1, crop)
    ensures forall i :: 0 <= i < |r| ==> HasCrop(r[i].1, crop)
  {
    if |data| == 0 then []
    else
      var rest := FarmsWithCrop(data[1..], crop);
      assert forall e :: e in data <==> e == data[0] || e in data[1..];
      if HasCrop(data[0].1, crop) then [data[0]] + rest else rest
  }

  /** The farm list keeps enumeration order and every entry once per
      occurrence: filtering a concatenation is concatenating the filtered
      parts, and a single farm is kept exactly when it carries the crop. */
  lemma {:induction false} FarmsWithCropAppend(a: Dataset, b: Dataset, crop: string)
    ensures FarmsWithCrop(a + b, crop) == FarmsWithCrop(a, crop) + FarmsWithCrop(b, crop)
    decreases |a|
  {
    if |a| == 0 {
      assert a + b == b;
    } else {
      assert (a + b)[1..] == a[1..] + b;
      FarmsWithCropAppend(a[1..], b, crop);
    }
  }

  lemma FarmsWithCropSingle(e: (string, Farm), crop: string)
    ensures FarmsWithCrop([e], crop) == if HasCrop(e.1, crop) then [e] else []
  {
  }

  /** The field a card highlights: the first of the farm's fields whose
      `field_shape_id` is the selected id. A selection of 0 still searches. */
  function SelectedField(farm: Farm, selectedFieldId: Option<int>): (r: Option<Field>)
    ensures selectedFieldId.None? ==> r.None?
    ensures selectedFieldId.Some? ==>
      (r.Some? <==> exists f :: f in FieldValues(farm.fields) && f.fieldShapeId == selectedFieldId.value)
    ensures r.Some? ==> r.value in FieldValues(farm.fields) && r.value.fieldShapeId == selectedFieldId.value
    ensures r.Some? ==> FirstWithShapeId(FieldValues(farm.fields), selectedFieldId.value, r.value)
  {
    match selectedFieldId
    case None => None
    case Some(id) => FieldWithShapeId(FieldValues(farm.fields), id)
  }

  /** `f` is the first of the fields whose `field_shape_id` is `id`. */
  predicate FirstWithShapeId(fields: seq<Field>, id: int, f: Field) {
    exists i :: 0 <= i < |fields| && fields[i] == f && forall j :: 0 <= j < i ==> fields[j].fieldShapeId != id
  }

  /** `selectedField.weather_periods?.length` is truthy. */
  predicate HasOwnPeriods(f: Field) {
    f.weatherPeriods.Some? && |f.weatherPeriods.value| > 0
  }

  /** The periods a card summarises. Only farms that carry the crop reach
      this choice, so the average list always exists. */
  function FarmPeriods(farm: Farm, crop: string, selectedFieldId: Option<int>): (r: seq<WeatherPeriod>)
    requires HasCrop(farm, crop)
    ensures r == CropEntry(farm, crop).value
         || (SelectedField(farm, selectedFieldId).Some? && Some(r) == SelectedField(farm, selectedFieldId).value.weatherPeriods)
  {
    var found := SelectedField(farm, selectedFieldId);
    if found.Some? && HasOwnPeriods(found.value) then found.value.weatherPeriods.value
    else CropEntry(farm, crop).value
  }

  function Title(farmName: string, found: Option<Field>): (r: string)
    ensures found.None? ==> r == farmName
    ensures found.Some? ==> |r| > |farmName| + |found.value.name|
    ensures found.Some? ==> r[..|farmName|] == farmName && r[|r| - |found.value.name|..] == found.value.name
  {
    match found
    case None => farmName
    case Some(f) => farmName + FieldTitleSeparator + f.name
  }

  /** The card of one listed farm. */
  function CardFor(name: string, farm: Farm, crop: string, selectedFieldId: Option<int>): (c: Card)
    requires HasCrop(farm, crop)
    ensures c.farmName == name
  {
    Card(name, Title(name, SelectedField(farm, selectedFieldId)), FarmPeriods(farm, crop, selectedFieldId))
  }

  /** One card per listed farm, in order. */
  function Cards(data: Dataset, crop: string, selectedFieldId: Option<int>): (r: seq<Card>)
    ensures |r| == |FarmsWithCrop(data, crop)|
    ensures forall i :: 0 <= i < |r| ==>
      r[i] == CardFor(FarmsWithCrop(data, crop)[i].0, FarmsWithCrop(data, crop)[i].1, crop, selectedFieldId)
  {
    var farms := FarmsWithCrop(data, crop);
    seq(|farms|, i requires 0 <= i < |farms| => CardFor(farms[i].0, farms[i].1, crop, selectedFieldId))
  }

  /** Listing is a filter: listing the listed farms again changes nothing. */
  lemma {:induction false} FarmsWithCropIdempotent(data: Dataset, crop: string)
    ensures FarmsWithCrop(FarmsWithCrop(data, crop), crop) == FarmsWithCrop(data, crop)
    decreases |data|
  {
    if |data| > 0 {
      FarmsWithCropIdempotent(data[1..], crop);
      var rest := FarmsWithCrop(data[1..], crop);
      if HasCrop(data[0].1, crop) {
        var r := [data[0]] + rest;
        assert r[1..] == rest;
      }
    }
  }

  /** A farm missing the crop key contributes no card; one that has it does,
      under its own name. */
  lemma {:induction false} FarmListedIff(data: Dataset, crop: string, selectedFieldId: Option<int>, name: string)
    ensures (exists c :: c in Cards(data, crop, selectedFieldId) && c.farmName == name)
        <==> (exists f :: (name, f) in data && HasCrop(f, crop))
  {
    if exists c :: c in Cards(data, crop, selectedFieldId) && c.farmName == name {
      var c :| c in Cards(data, crop, selectedFieldId) && c.farmName == name;
      CardListed(data, crop, selectedFieldId, c);
    }
    if exists f :: (name, f) in data && HasCrop(f, crop) {
      var f :| (name, f) in data && HasCrop(f, crop);
      FarmCarded(data, crop, selectedFieldId, name, f);
    }
  }

  lemma {:induction false} CardListed(data: Dataset, crop: string, selectedFieldId: Option<int>, c: Card)
    requires c in Cards(data, crop, selectedFieldId)
    ensures exists f :: (c.farmName, f) in data && HasCrop(f, crop)
  {
    var farms := FarmsWithCrop(data, crop);
    var cards := Cards(data, crop, selectedFieldId);
    var i :| 0 <= i < |cards| && cards[i] == c;
    assert farms[i] in farms;
    assert (c.farmName, farms[i].1) == farms[i];
  }

  lemma {:induction false} FarmCarded(data: Dataset, crop: string, selectedFieldId: Option<int>, name: string, f: Farm)
    requires (name, f) in data && HasCrop(f, crop)
    ensures exists c :: c in Cards(data, crop, selectedFieldId) && c.farmName == name
  {
    var farms := FarmsWithCrop(data, crop);
    assert (name, f) in farms;
    var i :| 0 <= i < |farms| && farms[i] == (name, f);
    var cards := Cards(data, crop, selectedFieldId);
    assert cards[i] in cards && cards[i].farmName == name;
  }

  /** With nothing selected every card shows the farm's average periods
      under the bare farm name. */
  lemma {:induction false} NoSelectionShowsAverages(data: Dataset, crop: string)
    ensures forall c :: c in Cards(data, crop, None) ==>
      exists farm :: ShowsAverage(data, crop, c, farm)
  {
    var farms := FarmsWithCrop(data, crop);
    var cards := Cards(data, crop, None);
    forall c | c in cards
      ensures exists farm :: ShowsAverage(data, crop, c, farm)
    {
      var i :| 0 <= i < |cards| && cards[i] == c;
      assert farms[i] in farms;
      var farm := farms[i].1;
      assert (c.farmName, farm) in data;
      assert ShowsAverage(data, crop, c, farm);
    }
  }

  /** The card is the listed farm's, with its average periods and bare name. */
  predicate ShowsAverage(data: Dataset, crop: string, c: Card, farm: Farm) {
    (c.farmName, farm) in data && HasCrop(farm, crop)
    && c.periods == CropEntry(farm, crop).value && c.title == c.farmName
  }

  /** Two fields that are both the first with a shape id are the same field. */
  lemma FirstWithShapeIdUnique(fields: seq<Field>, id: int, f: Field, g: Field)
    requires FirstWithShapeId(fields, id, f) && FirstWithShapeId(fields, id, g)
    requires f.fieldShapeId == id && g.fieldShapeId == id
    ensures f == g
  {
    var i :| 0 <= i < |fields| && fields[i] == f && forall j :: 0 <= j < i ==> fields[j].fieldShapeId != id;
    var k :| 0 <= k < |fields| && fields[k] == g && forall j :: 0 <= j < k ==> fields[j].fieldShapeId != id;
    assert !(i < k) && !(k < i);
  }

  /** The first field carrying a shape id, when it has non-empty periods of
      its own, is shown verbatim under its own name. */
  lemma {:induction false} FieldPeriodsVerbatim(farm: Farm, crop: string, f: Field)
    requires HasCrop(farm, crop)
    requires FirstWithShapeId(FieldValues(farm.fields), f.fieldShapeId, f)
    requires f.weatherPeriods.Some? && |f.weatherPeriods.value| > 0
    ensures FarmPeriods(farm, crop, Some(f.fieldShapeId)) == f.weatherPeriods.value
    ensures Title("", SelectedField(farm, Some(f.fieldShapeId))) == FieldTitleSeparator + f.name
  {
    var fields := FieldValues(farm.fields);
    var found := SelectedField(farm, Some(f.fieldShapeId));
    assert found == Some(f) by {
      assert f in fields;
      FirstWithShapeIdUnique(fields, f.fieldShapeId, f, found.value);
    }
    assert "" + FieldTitleSeparator + f.name == FieldTitleSeparator + f.name;
  }

  /** A selection that matches no field, or whose first matching field has
      no periods of its own, falls back to the farm's average list. */
  lemma {:induction false} FallBackToAverage(farm: Farm, crop: string, id: int)
    requires HasCrop(farm, crop)
    requires SelectedField(farm, Some(id)).None? || !HasOwnPeriods(SelectedField(farm, Some(id)).value)
    ensures FarmPeriods(farm, crop, Some(id)) == CropEntry(farm, crop).value
  {
  }

  /** The title differs from the bare farm name exactly when the selected
      field was found in that farm. */
  lemma {:induction false} TitleNamesFieldIff(farmName: string, farm: Farm, selectedFieldId: Option<int>)
    ensures Title(farmName, SelectedField(farm, selectedFieldId)) != farmName
        <==> SelectedField(farm, selectedFieldId).Some?
  {
    var found := SelectedField(farm, selectedFieldId);
    if found.Some? {
      assert |Title(farmName, found)| > |farmName|;
    }
  }
}

=== FILE: field_selector.dfy ===
/** One farm's screen: the field selected in the table, the dataset narrowed
    to that field for the cards and the table, and the field list handed to
    the humidity chart. */
module FieldSelector {
  import opened FormTypes
  import opened AssocList
  import HumidityChart
  import FieldsTable
  import FarmSelector

  /** `selectedFieldId && farm?.fields?.[selectedFieldId]`: the selection is
      looked up by the field's key; `null` and 0 select nothing. */
  function SelectedField(farm: Option<Farm>, selectedFieldId: Option<int>): (r: Option<Field>)
    ensures selectedFieldId.None? || selectedFieldId == Some(0) || farm.None? ==> r.None?
    ensures r.Some? ==> (selectedFieldId.value, r.value) in farm.value.fields
    ensures farm.Some? && selectedFieldId.Some? && selectedFieldId.value != 0 ==>
      (r.Some? <==> HasKey(farm.value.fields, selectedFieldId.value))
  {
    match selectedFieldId
    case None => None
    case Some(id) =>
      if id == 0 || farm.None? then None else Find(farm.value.fields, id)
  }

  /** `find(field => field.field_shape_id === selectedFieldId)?.name || null`:
      the selection is matched against `field_shape_id`, and an empty name
      reads as no name. */
  function SelectedFieldName(farm: Option<Farm>, selectedFieldId: Option<int>): (r: Option<string>)
    ensures farm.None? || selectedFieldId.None? ==> r.None?
    ensures r.Some? ==> |r.value| > 0 && farm.Some? && selectedFieldId.Some?
    ensures r.Some? ==> exists f :: NamedField(farm.value, selectedFieldId.value, f, r.value)
    ensures farm.Some? && selectedFieldId.Some? ==>
      match FieldWithShapeId(FieldValues(farm.value.fields), selectedFieldId.value)
      case Some(f) => (|f.name| > 0 ==> r == Some(f.name)) && (|f.name| == 0 ==> r.None?)
      case None => r.None?
  {
    match (farm, selectedFieldId)
    case (Some(fm), Some(id)) =>
      (match FieldWithShapeId(FieldValues(fm.fields), id)
       case Some(f) =>
         if |f.name| > 0 then
           assert NamedField(fm, id, f, f.name);
           Some(f.name)
         else None
       case None => None)
    case _ => None
  }

  /** The heading above the table and the farm card drawn from the narrowed
      data agree when every field key is the field's shape id: the heading
      names the field the card found, unless that field's name is empty. */
  lemma {:induction false} HeadingNamesCardField(data: Dataset, farmName: string, selectedFieldId: Option<int>)
    requires FarmNamed(data, farmName).Some?
    requires KeysAreShapeIds(FarmNamed(data, farmName).value)
    requires KeysDistinct(FarmNamed(data, farmName).value.fields)
    ensures match FarmSelector.SelectedField(FilteredFarmData(data, farmName, selectedFieldId)[0].1, selectedFieldId)
            case Some(f) => SelectedFieldName(FarmNamed(data, farmName), selectedFieldId) == (if |f.name| > 0 then Some(f.name) else None)
            case None => SelectedFieldName(FarmNamed(data, farmName), selectedFieldId).None?
  {
    var farm := FarmNamed(data, farmName).value;
    var shown := FilteredFarmData(data, farmName, selectedFieldId)[0].1;
    match SelectedField(Some(farm), selectedFieldId)
    case None =>
      assert shown.fields == farm.fields;
    case Some(f) =>
      var id := selectedFieldId.value;
      assert shown.fields == [(id, f)];
      var j :| 0 <= j < |farm.fields| && farm.fields[j] == (id, f);
      assert f.fieldShapeId == id;
      assert FieldValues(shown.fields) == [f];
      assert FieldWithShapeId([f], id) == Some(f);
      KeyAndShapeLookupsAgree(farm, id);
  }

  /** Without shape-id keys the two lookups part ways: with the field of
      shape 7 stored under key 5 and the field of shape 5 under key 7,
      selecting 5 narrows the card to the first field, which the card then
      does not recognise, while the heading names the second. */
  lemma {:induction false} HeadingAndCardDisagree(data: Dataset, farmName: string, a: Field, b: Field)
    requires FarmNamed(data, farmName).Some?
    requires FarmNamed(data, farmName).value.fields == [(5, a), (7, b)]
    requires a.fieldShapeId == 7 && b.fieldShapeId == 5 && b.name == "B"
    ensures FarmSelector.SelectedField(FilteredFarmData(data, farmName, Some(5))[0].1, Some(5)).None?
    ensures SelectedFieldName(FarmNamed(data, farmName), Some(5)) == Some("B")
  {
    var farm := FarmNamed(data, farmName).value;
    assert farm.fields[0].0 == 5;
    FindIffEntry(farm.fields, 5, a);
    assert FilteredFarmData(data, farmName, Some(5))[0].1.fields == [(5, a)];
    assert FieldValues([(5, a)]) == [a];
    assert FieldValues(farm.fields) == [a, b];
  }

  /** `f` is a field of the farm with that shape id and name. */
  predicate NamedField(farm: Farm, id: int, f: Field, name: string) {
    f in FieldValues(farm.fields) && f.fieldShapeId == id && f.name == name
  }

  /** The fields the cards and the table see: just the selected one under its
      key when the selection was found, every field of the farm otherwise. */
  function VisibleFields(farm: Farm, selectedFieldId: Option<int>): (r: seq<(int, Field)>)
    ensures SelectedField(Some(farm), selectedFieldId).Some? ==>
      r == [(selectedFieldId.value, SelectedField(Some(farm), selectedFieldId).value)]
    ensures SelectedField(Some(farm), selectedFieldId).None? ==> r == farm.fields
    ensures forall e :: e in r ==> e in farm.fields
  {
    match SelectedField(Some(farm), selectedFieldId)
    case Some(f) => [(selectedFieldId.value, f)]
    case None => farm.fields
  }

  /** `filteredFarmData`: a dataset holding only this farm, its averages
      unchanged and its fields narrowed. The source reads `farm.fields`
      unguarded, so the farm must exist. */
  function FilteredFarmData(data: Dataset, farmName: string, selectedFieldId: Option<int>): (r: Dataset)
    requires FarmNamed(data, farmName).Some?
    ensures |r| == 1 && r[0].0 == farmName
    ensures r[0].1.avgWeatherPeriods == FarmNamed(data, farmName).value.avgWeatherPeriods
    ensures forall e :: e in r[0].1.fields ==> e in FarmNamed(data, farmName).value.fields
    ensures r[0].1.fields == VisibleFields(FarmNamed(data, farmName).value, selectedFieldId)
    ensures r[0].1 == FarmNamed(data, farmName).value.(fields := r[0].1.fields)
  {
    var farm := FarmNamed(data, farmName).value;
    [(farmName, farm.(fields := VisibleFields(farm, selectedFieldId)))]
  }

  /** `chartFields`: what the humidity chart learns of each listed field. */
  function ChartFieldOf(f: Field): (c: HumidityChart.ChartField)
    ensures c.id == f.fieldShapeId && c.weatherStationId == f.weatherStationId && c.tillableArea == f.tillableArea
  {
    HumidityChart.ChartField(f.fieldShapeId, f.weatherStationId, f.tillableArea)
  }

  /** The chart's field list: the selected field alone, or, with no selection
      found, every field of the farm whatever its crop. */
  function ChartFields(data: Dataset, farmName: string, selectedFieldId: Option<int>): (r: seq<HumidityChart.ChartField>)
    requires FarmNamed(data, farmName).Some?
    ensures |r| == |VisibleFields(FarmNamed(data, farmName).value, selectedFieldId)|
    ensures forall i :: 0 <= i < |r| ==>
      r[i] == ChartFieldOf(VisibleFields(FarmNamed(data, farmName).value, selectedFieldId)[i].1)
  {
    var fields := FieldValues(VisibleFields(FarmNamed(data, farmName).value, selectedFieldId));
    seq(|fields|, i requires 0 <= i < |fields| => ChartFieldOf(fields[i]))
  }

  /** `onFieldSelect`: the table reports a click and the screen toggles its
      selection the same way the table toggles its own highlight. */
  function OnFieldSelect(prev: Option<int>, id: int): (r: Option<int>)
    ensures r == FieldsTable.ToggleRow(prev, id)
    ensures r == Some(id) <==> prev != Some(id)
  {
    if prev == Some(id) then None else Some(id)
  }

  /** Every field key is the field's own shape id. */
  predicate KeysAreShapeIds(farm: Farm) {
    forall i :: 0 <= i < |farm.fields| ==> farm.fields[i].0 == farm.fields[i].1.fieldShapeId
  }

  /** When keys are shape ids, the key lookup that narrows the data and the
      shape-id lookup that names the heading find the same field. */
  lemma KeyAndShapeLookupsAgree(farm: Farm, id: int)
    requires KeysAreShapeIds(farm) && KeysDistinct(farm.fields) && id != 0
    ensures SelectedField(Some(farm), Some(id)).Some?
        <==> FieldWithShapeId(FieldValues(farm.fields), id).Some?
    ensures SelectedField(Some(farm), Some(id)).Some? ==>
      SelectedField(Some(farm), Some(id)) == FieldWithShapeId(FieldValues(farm.fields), id)
  {
    var byKey := SelectedField(Some(farm), Some(id));
    var byShape := FieldWithShapeId(FieldValues(farm.fields), id);
    if byShape.Some? {
      var j :| 0 <= j < |farm.fields| && farm.fields[j].1 == byShape.value;
      assert farm.fields[j].0 == id;
      assert HasKey(farm.fields, id);
    }
    if byKey.Some? {
      var j :| 0 <= j < |farm.fields| && farm.fields[j] == (id, byKey.value);
      assert FieldValues(farm.fields)[j] == byKey.value;
      assert byShape.Some?;
      var k :| 0 <= k < |farm.fields| && farm.fields[k].1 == byShape.value;
      assert farm.fields[k].0 == id;
      assert farm.fields[k] == farm.fields[j];
    }
  }

  /** With no field selected, the chart is fed every field of the farm, so
      fields of other crops weigh in on the humidity series too. */
  lemma {:induction false} UnselectedChartHasAllCrops(data: Dataset, farmName: string, f: Field)
    requires FarmNamed(data, farmName).Some?
    requires f in FieldValues(FarmNamed(data, farmName).value.fields)
    ensures ChartFieldOf(f) in ChartFields(data, farmName, None)
  {
    var fields := FarmNamed(data, farmName).value.fields;
    var i :| 0 <= i < |fields| && fields[i].1 == f;
    assert ChartFields(data, farmName, None)[i] == ChartFieldOf(f);
  }

  /** A found selection narrows both the cards and the chart to that one
      field; nothing else of the farm changes. */
  lemma {:induction false} SelectionNarrows(data: Dataset, farmName: string, id: int, f: Field)
    requires FarmNamed(data, farmName).Some?
    requires id != 0 && (id, f) in FarmNamed(data, farmName).value.fields
    requires KeysDistinct(FarmNamed(data, farmName).value.fields)
    ensures FilteredFarmData(data, farmName, Some(id))[0].1.fields == [(id, f)]
    ensures ChartFields(data, farmName, Some(id)) == [ChartFieldOf(f)]
  {
    var farm := FarmNamed(data, farmName).value;
    FindIffEntry(farm.fields, id, f);
  }
}

=== FILE: fields_table.dfy ===
/** The per-field table of one farm: the crop's fields, each with the share
    of its effective-temperature and precipitation norms received so far, a
    capped progress bar, and a local row selection. */
module FieldsTable {
  import opened FormTypes

  /** What a field's row shows: the two percentages, `null` when the norm
      total is 0. */
  datatype Row = Row(field: Field, tempPercent: Option<real>, precipPercent: Option<real>)

  /** A progress bar: its width in percent and whether it is drawn in the
      "complete" colour. */
  datatype Bar = Bar(width: real, complete: bool)

  /** `periods?.reduce((sum, p) => sum + (p.<reading> || 0), 0) ?? 0`,
      summed from the left. */
  function Total(periods: Option<seq<WeatherPeriod>>, k: Metric): (r: real)
    ensures periods.None? ==> r == 0.0
    ensures periods.Some? ==> r == PeriodsTotal(periods.value, k)
  {
    match periods
    case None => 0.0
    case Some(ps) => PeriodsTotal(ps, k)
  }

  /** `norm ? fact / norm * 100 : null`. */
  function Percent(fact: real, norm: real): (r: Option<real>)
    ensures r.None? <==> norm == 0.0
    ensures r.Some? ==> r.value * norm == fact * 100.0
  {
    if norm != 0.0 then Some(fact / norm * 100.0) else None
  }

  /** `Math.min(percent, 100)` wide, complete colour iff `percent >= 100`. */
  function ProgressBar(percent: real): (b: Bar)
    ensures b.width <= 100.0 && b.width <= percent
    ensures b.width == percent || b.width == 100.0
    ensures b.complete <==> b.width == 100.0
  {
    Bar(if percent < 100.0 then percent else 100.0, percent >= 100.0)
  }

  /** `data[farmName]` and its fields of the crop; `None` is the "no data for
      this farm" message. */
  function FieldEntries(data: Dataset, farmName: string, crop: string): (r: Option<seq<Field>>)
    ensures r.None? <==> FarmNamed(data, farmName).None?
    ensures r.Some? ==> forall f :: f in r.value <==>
      f in FieldValues(FarmNamed(data, farmName).value.fields) && f.cropName == crop
  {
    match FarmNamed(data, farmName)
    case None => None
    case Some(farm) => Some(FieldsOfCrop(FieldValues(farm.fields), crop))
  }

  function RowOf(f: Field): (r: Row)
    ensures r.field == f
  {
    Row(f,
        Percent(Total(f.weatherPeriods, SumEffectiveTemperature), Total(f.weatherPeriods, NormSumEffTemp)),
        Percent(Total(f.weatherPeriods, SumPrecipitation), Total(f.weatherPeriods, NormPrecipitation)))
  }

  /** The rows of the table, one per field of the crop, in field order. */
  function Rows(data: Dataset, farmName: string, crop: string): (r: Option<seq<Row>>)
    ensures r.None? <==> FarmNamed(data, farmName).None?
    ensures r.Some? ==> |r.value| == |FieldEntries(data, farmName, crop).value|
    ensures r.Some? ==> forall i :: 0 <= i < |r.value| ==> r.value[i] == RowOf(FieldEntries(data, farmName, crop).value[i])
  {
    match FieldEntries(data, farmName, crop)
    case None => None
    case Some(fs) => Some(seq(|fs|, i requires 0 <= i < |fs| => RowOf(fs[i])))
  }

  /** A click on a row: the same id clears the selection, another selects it. */
  function ToggleRow(selected: Option<int>, id: int): (r: Option<int>)
    ensures r.None? || r == Some(id)
  {
    if selected == Some(id) then None else Some(id)
  }

  /** A period list whose readings are all missing totals 0, so a field
      without norms shows no percentage. */
  lemma {:induction false} MissingReadingsTotalZero(ps: seq<WeatherPeriod>, k: Metric)
    requires forall p :: p in ps ==> Reading(p, k).None?
    ensures PeriodsTotal(ps, k) == 0.0
    ensures Total(Some(ps), k) == 0.0 && Total(None, k) == 0.0
    ensures k == NormSumEffTemp ==> Percent(PeriodsTotal(ps, SumEffectiveTemperature), PeriodsTotal(ps, k)).None?
    decreases |ps|
  {
    if |ps| > 0 {
      assert ps[|ps| - 1] in ps;
      assert forall p :: p in ps[..|ps| - 1] ==> p in ps;
      MissingReadingsTotalZero(ps[..|ps| - 1], k);
    }
  }

  /** With a positive norm, the bar is complete exactly when the fact has
      reached the norm. */
  lemma CompleteIffNormReached(fact: real, norm: real)
    requires norm > 0.0
    ensures ProgressBar(Percent(fact, norm).value).complete <==> fact >= norm
  {
    var q := fact / norm;
    assert q * norm == fact;
    if q >= 1.0 {
      assert q * norm >= 1.0 * norm;
    } else {
      assert q * norm < 1.0 * norm;
    }
  }

  /** Clicking the same row twice restores the selection it started from,
      when that selection was empty or the row itself. */
  lemma ToggleRowTwice(selected: Option<int>, id: int)
    requires selected.None? || selected == Some(id)
    ensures ToggleRow(ToggleRow(selected, id), id) == selected
  {
  }

  /** A click selects the row exactly when it was not the selected one. */
  lemma ToggleRowFlips(selected: Option<int>, id: int)
    ensures ToggleRow(selected, id) == Some(id) <==> selected != Some(id)
  {
  }
}

=== FILE: form_types.dfy ===
/** The shapes of the fetched season snapshot (farms, fields, weather periods,
    station records, norms) and the small lookups every component shares.

    A JS object is modelled as a sequence of (key, value) pairs in enumeration
    order; a property the JSON may leave `null` is an `Option`. */
module FormTypes {

  datatype Option<+T> = None | Some(value: T) {
    function GetOr(default: T): T {
      match this
      case Some(v) => v
      case None => default
    }
  }

  /** A date already parsed to a comparable value (`new Date(s).getTime()`). */
  type Date = int

  /** A numeric reading that may be `null`; the source reads it as `x ?? 0`
      or `x || 0`, which agree on every finite value. */
  function OrZero(x: Option<real>): (r: real)
    ensures x.None? ==> r == 0.0
    ensures x.Some? ==> r == x.value
  {
    x.GetOr(0.0)
  }

  datatype Norms = Norms(
    crop: string,
    daysInPeriod: real,
    id: int,
    minTemp: real,
    normMeanTemp: Option<real>,
    normPrecipitation: Option<real>,
    normSumEffTemp: Option<real>,
    periodId: nat,
    periodName: Option<string>)

  datatype Weather = Weather(
    effectiveTemperatureBase: real,
    meanTemperature: Option<real>,
    sumEffectiveTemperature: Option<real>,
    sumPrecipitation: Option<real>)

  datatype WeatherPeriod = WeatherPeriod(
    dateStart: Option<Date>,
    dateEnd: Option<Date>,
    norms: Norms,
    periodId: nat,
    weather: Weather)

  datatype Field = Field(
    cropName: string,
    fieldShapeId: int,
    name: string,
    sowingDate: string,
    tillableArea: Option<real>,
    weatherPeriods: Option<seq<WeatherPeriod>>,
    weatherStationId: int)

  /** `avg_weather_periods` maps crop name to the farm-wide period list;
      `fields` maps the numeric field key to the field. A missing `fields`
      object is the empty sequence. */
  datatype Farm = Farm(
    avgWeatherPeriods: seq<(string, seq<WeatherPeriod>)>,
    fields: seq<(int, Field)>)

  /** Farm name to farm, in enumeration order. */
  type Dataset = seq<(string, Farm)>

  /** One station-year of daily observations; `value` maps a date to the
      relative humidity of that day (the other readings pass through). */
  datatype StationData = StationData(
    id: int,
    weatherHistoryableId: int,
    year: int,
    value: seq<(Date, real)>)

  /** A crop's norm for one period, as the norms table edits it. */
  datatype Norm = Norm(
    id: int,
    crop: string,
    periodId: nat,
    daysInPeriod: real,
    minTemp: real,
    normMeanTemp: real,
    normPrecipitation: real,
    normSumEffTemp: real,
    periodName: Option<string>)

  /** A crop the operator excluded, with the id of its record in the store. */
  datatype ExceptionEntry = ExceptionEntry(crop: string, id: int)

  /** The six period readings the aggregations combine. */
  datatype Metric =
    | NormMeanTemp | NormSumEffTemp | NormPrecipitation
    | MeanTemperature | SumEffectiveTemperature | SumPrecipitation

  function Reading(p: WeatherPeriod, k: Metric): Option<real> {
    match k
    case NormMeanTemp => p.norms.normMeanTemp
    case NormSumEffTemp => p.norms.normSumEffTemp
    case NormPrecipitation => p.norms.normPrecipitation
    case MeanTemperature => p.weather.meanTemperature
    case SumEffectiveTemperature => p.weather.sumEffectiveTemperature
    case SumPrecipitation => p.weather.sumPrecipitation
  }

  /** The crop names a farm has averages for (`Object.keys(avg_weather_periods)`). */
  function CropKeys(farm: Farm): (r: seq<string>)
    ensures |r| == |farm.avgWeatherPeriods|
    ensures forall i :: 0 <= i < |r| ==> r[i] == farm.avgWeatherPeriods[i].0
  {
    seq(|farm.avgWeatherPeriods|, i requires 0 <= i < |farm.avgWeatherPeriods| => farm.avgWeatherPeriods[i].0)
  }

  predicate HasCrop(farm: Farm, crop: string) {
    crop in CropKeys(farm)
  }

  /** `farm.avg_weather_periods[crop]`: the list under the key, if present. */
  function CropEntry(farm: Farm, crop: string): (r: Option<seq<WeatherPeriod>>)
    ensures r.Some? <==> HasCrop(farm, crop)
    ensures r.Some? ==> (crop, r.value) in farm.avgWeatherPeriods
  {
    Lookup(farm.avgWeatherPeriods, crop)
  }

  /** `obj[key]` on an object keyed by strings: the first entry under the
      key, if any. */
  function Lookup<V>(entries: seq<(string, V)>, key: string): (r: Option<V>)
    ensures r.Some? <==> exists i :: 0 <= i < |entries| && entries[i].0 == key
    ensures r.Some? ==> (key, r.value) in entries
  {
    if |entries| == 0 then None
    else if entries[0].0 == key then Some(entries[0].1)
    else
      var r := Lookup(entries[1..], key);
      assert forall i :: 1 <= i < |entries| ==> entries[i] == entries[1..][i - 1];
      r
  }

  /** `data[farmName]`. */
  function FarmNamed(data: Dataset, name: string): (r: Option<Farm>)
    ensures r.Some? <==> exists i :: 0 <= i < |data| && data[i].0 == name
    ensures r.Some? ==> (name, r.value) in data
  {
    Lookup(data, name)
  }

  /** `Object.values(fields)`. */
  function FieldValues(fields: seq<(int, Field)>): (r: seq<Field>)
    ensures |r| == |fields|
    ensures forall i :: 0 <= i < |r| ==> r[i] == fields[i].1
  {
    seq(|fields|, i requires 0 <= i < |fields| => fields[i].1)
  }

  /** `fields.filter(field => field.crop_name === crop)`, order kept. */
  function FieldsOfCrop(fields: seq<Field>, crop: string): (r: seq<Field>)
    ensures |r| <= |fields|
    ensures forall f :: f in r <==> f in fields && f.cropName == crop
  {
    if |fields| == 0 then []
    else if fields[0].cropName == crop then [fields[0]] + FieldsOfCrop(fields[1..], crop)
    else FieldsOfCrop(fields[1..], crop)
  }

  /** The filter keeps order and multiplicity: filtering a concatenation is
      concatenating the filtered parts, and a single field is kept exactly
      when it grows the crop. */
  lemma {:induction false} FieldsOfCropAppend(a: seq<Field>, b: seq<Field>, crop: string)
    ensures FieldsOfCrop(a + b, crop) == FieldsOfCrop(a, crop) + FieldsOfCrop(b, crop)
    decreases |a|
  {
    if |a| == 0 {
      assert a + b == b;
    } else {
      assert (a + b)[1..] == a[1..] + b;
      FieldsOfCropAppend(a[1..], b, crop);
    }
  }

  lemma FieldsOfCropSingle(f: Field, crop: string)
    ensures FieldsOfCrop([f], crop) == if f.cropName == crop then [f] else []
  {
  }

  /** Sum of `tillable_area || 0` over a list of fields. */
  function AreaSum(fields: seq<Field>): real {
    if |fields| == 0 then 0.0 else OrZero(fields[0].tillableArea) + AreaSum(fields[1..])
  }

  /** First field whose `field_shape_id` is `id` (`Object.values(fields).find`). */
  function FieldWithShapeId(fields: seq<Field>, id: int): (r: Option<Field>)
    ensures r.Some? <==> exists f :: f in fields && f.fieldShapeId == id
    ensures r.Some? ==> r.value in fields && r.value.fieldShapeId == id
    ensures r.Some? ==> exists i :: 0 <= i < |fields| && fields[i] == r.value
                                  && forall j :: 0 <= j < i ==> fields[j].fieldShapeId != id
  {
    if |fields| == 0 then None
    else if fields[0].fieldShapeId == id then Some(fields[0])
    else
      var r := FieldWithShapeId(fields[1..], id);
      assert forall f :: f in fields && f != fields[0] ==> f in fields[1..];
      r
  }

  /** `periods.reduce((sum, p) => sum + p.<reading>, 0)` with a missing
      reading adding 0, summed from the left. */
  function PeriodsTotal(ps: seq<WeatherPeriod>, k: Metric): (r: real)
    ensures |ps| == 0 ==> r == 0.0
    ensures |ps| == 1 ==> r == OrZero(Reading(ps[0], k))
  {
    assert |ps| == 1 ==> ps[..0] == [];
    if |ps| == 0 then 0.0 else PeriodsTotal(ps[..|ps| - 1], k) + OrZero(Reading(ps[|ps| - 1], k))
  }

  /** Concatenating period lists adds their totals. */
  lemma {:induction false} PeriodsTotalAppend(a: seq<WeatherPeriod>, b: seq<WeatherPeriod>, k: Metric)
    ensures PeriodsTotal(a + b, k) == PeriodsTotal(a, k) + PeriodsTotal(b, k)
    decreases |b|
  {
    if |b| > 0 {
      var b' := b[..|b| - 1];
      assert (a + b)[..|a + b| - 1] == a + b';
      PeriodsTotalAppend(a, b', k);
    } else {
      assert a + b == a;
    }
  }

  /** With no negative reading, no total is negative. */
  lemma {:induction false} PeriodsTotalNonNegative(ps: seq<WeatherPeriod>, k: Metric)
    requires forall p :: p in ps ==> OrZero(Reading(p, k)) >= 0.0
    ensures PeriodsTotal(ps, k) >= 0.0
    decreases |ps|
  {
    if |ps| > 0 {
      assert ps[|ps| - 1] in ps;
      assert forall p :: p in ps[..|ps| - 1] ==> p in ps;
      PeriodsTotalNonNegative(ps[..|ps| - 1], k);
    }
  }
}

=== FILE: humidity_chart.dfy ===
/** The relative-humidity line chart: either the raw series of the station of
    one selected field, or, for the whole farm, the per-date mean over all
    stations weighted by the area of the fields each station serves. */
module HumidityChart {
  import opened FormTypes
  import opened AssocList

  /** What the field selector hands over per field: its shape id, its
      station and its area. */
  datatype ChartField = ChartField(id: int, weatherStationId: int, tillableArea: Option<real>)

  /** A date's running numerator (humidity times weight) and denominator. */
  datatype Cell = Cell(total: real, weight: real)

  /** One point of the chart; `None` is drawn as a gap. */
  datatype Point = Point(date: Date, humidity: Option<real>)

  const Empty := Cell(0.0, 0.0)

  // ---------------------------------------------------------------------
  // Selected-field mode
  // ---------------------------------------------------------------------

  /** `fields.find(f => f.id === id)`. */
  function FieldWithId(fields: seq<ChartField>, id: int): (r: Option<ChartField>)
    ensures r.None? <==> forall i :: 0 <= i < |fields| ==> fields[i].id != id
    ensures r.Some? ==> exists i :: 0 <= i < |fields| && fields[i] == r.value && r.value.id == id
                                    && forall j :: 0 <= j < i ==> fields[j].id != id
  {
    if |fields| == 0 then None
    else if fields[0].id == id then Some(fields[0])
    else
      var r := FieldWithId(fields[1..], id);
      assert forall i :: 1 <= i < |fields| ==> fields[i] == fields[1..][i - 1];
      if r.Some? then
        var i :| 0 <= i < |fields[1..]| && fields[1..][i] == r.value && r.value.id == id
                 && forall j :: 0 <= j < i ==> fields[1..][j].id != id;
        assert fields[i + 1] == r.value;
        r
      else r
  }

  /** `weatherData.find(s => s.weather_historyable_id === stationId)`: the
      first record of the station, further records of it are ignored. */
  function StationOf(stations: seq<StationData>, stationId: int): (r: Option<StationData>)
    ensures r.None? <==> forall i :: 0 <= i < |stations| ==> stations[i].weatherHistoryableId != stationId
    ensures r.Some? ==> exists i :: 0 <= i < |stations| && stations[i] == r.value
                                    && r.value.weatherHistoryableId == stationId
                                    && forall j :: 0 <= j < i ==> stations[j].weatherHistoryableId != stationId
  {
    if |stations| == 0 then None
    else if stations[0].weatherHistoryableId == stationId then Some(stations[0])
    else
      var r := StationOf(stations[1..], stationId);
      assert forall i :: 1 <= i < |stations| ==> stations[i] == stations[1..][i - 1];
      if r.Some? then
        var i :| 0 <= i < |stations[1..]| && stations[1..][i] == r.value
                 && r.value.weatherHistoryableId == stationId
                 && forall j :: 0 <= j < i ==> stations[1..][j].weatherHistoryableId != stationId;
        assert stations[i + 1] == r.value;
        r
      else r
  }

  /** Copies a station's series date by date, each reading with weight 1. */
  function CopySeries(values: seq<(Date, real)>): (r: seq<(Date, Cell)>)
    ensures KeysDistinct(r)
    decreases |values|
  {
    if |values| == 0 then []
    else
      var last := values[|values| - 1];
      PutKeysDistinct(CopySeries(values[..|values| - 1]), last.0, Cell(last.1, 1.0));
      Put(CopySeries(values[..|values| - 1]), last.0, Cell(last.1, 1.0))
  }

  /** The accumulator of selected-field mode: empty when the field or its
      station is not found. */
  function SelectedCells(fields: seq<ChartField>, stations: seq<StationData>, id: int): (r: seq<(Date, Cell)>)
    ensures KeysDistinct(r)
  {
    match FieldWithId(fields, id)
    case None => []
    case Some(f) =>
      match StationOf(stations, f.weatherStationId)
      case None => []
      case Some(s) => CopySeries(s.value)
  }

  // ---------------------------------------------------------------------
  // Aggregate mode
  // ---------------------------------------------------------------------

  /** `stationIdToArea`: the running area per station id, fields in order. */
  function StationAreas(fields: seq<ChartField>): seq<(int, real)>
    decreases |fields|
  {
    if |fields| == 0 then []
    else
      AddArea(StationAreas(fields[..|fields| - 1]), fields[|fields| - 1])
  }

  /** `map.set(id, (map.get(id) || 0) + tillable_area)`. */
  function AddArea(m: seq<(int, real)>, f: ChartField): seq<(int, real)> {
    Put(m, f.weatherStationId, Find(m, f.weatherStationId).GetOr(0.0) + OrZero(f.tillableArea))
  }

  /** The weight a station's readings carry; `None` when the station is
      skipped because its area is missing or zero (`if (!area) return`). */
  function StationWeight(areas: seq<(int, real)>, s: StationData): (r: Option<real>)
    ensures r.Some? ==> r.value != 0.0 && Find(areas, s.weatherHistoryableId) == r
    ensures r.None? <==> Find(areas, s.weatherHistoryableId) in {None, Some(0.0)}
  {
    match Find(areas, s.weatherHistoryableId)
    case None => None
    case Some(a) => if a == 0.0 then None else Some(a)
  }

  /** A reading's humidity times its station's weight. */
  function Share(e: (Date, real), w: real): real {
    e.1 * w
  }

  /** `humidityByDate[date] ??= {0, 0}`, then add the weighted reading. */
  function AddReading(m: seq<(Date, Cell)>, e: (Date, real), w: real): seq<(Date, Cell)> {
    var c := Find(m, e.0).GetOr(Empty);
    Put(m, e.0, Cell(c.total + Share(e, w), c.weight + w))
  }

  lemma {:induction false} AddReadingKeysDistinct(m: seq<(Date, Cell)>, e: (Date, real), w: real)
    ensures KeysDistinct(m) ==> KeysDistinct(AddReading(m, e, w))
  {
    if KeysDistinct(m) {
      var c := Find(m, e.0).GetOr(Empty);
      PutKeysDistinct(m, e.0, Cell(c.total + Share(e, w), c.weight + w));
    }
  }

  /** The inner loop: every reading of one station, in order. */
  function AddReadings(m: seq<(Date, Cell)>, values: seq<(Date, real)>, w: real): (r: seq<(Date, Cell)>)
    ensures KeysDistinct(m) ==> KeysDistinct(r)
    decreases |values|
  {
    if |values| == 0 then m
    else
      var prev := AddReadings(m, values[..|values| - 1], w);
      AddReadingKeysDistinct(prev, values[|values| - 1], w);
      AddReading(prev, values[|values| - 1], w)
  }

  /** The outer loop over the station records. */
  function AggregateCells(stations: seq<StationData>, areas: seq<(int, real)>): (r: seq<(Date, Cell)>)
    ensures KeysDistinct(r)
    decreases |stations|
  {
    if |stations| == 0 then []
    else
      var m := AggregateCells(stations[..|stations| - 1], areas);
      match StationWeight(areas, stations[|stations| - 1])
      case None => m
      case Some(w) => AddReadings(m, stations[|stations| - 1].value, w)
  }

  /** `humidityByDate`: selected-field mode when an id is given. */
  function HumidityByDate(fields: seq<ChartField>, stations: seq<StationData>, selected: Option<int>): (r: seq<(Date, Cell)>)
    ensures KeysDistinct(r)
  {
    match selected
    case Some(id) => SelectedCells(fields, stations, id)
    case None => AggregateCells(stations, StationAreas(fields))
  }

  // ---------------------------------------------------------------------
  // Finalisation
  // ---------------------------------------------------------------------

  /** `weight ? total / weight : null`. */
  function Mean(c: Cell): (r: Option<real>)
    ensures r.None? <==> c.weight == 0.0
    ensures r.Some? ==> r.value * c.weight == c.total
  {
    if c.weight != 0.0 then Some(c.total / c.weight) else None
  }

  /** `chartData`: one point per accumulated date, ascending by date. */
  function ChartData(cells: seq<(Date, Cell)>): (r: seq<Point>)
    requires KeysDistinct(cells)
    ensures |r| == |cells|
    ensures forall i, j :: 0 <= i < j < |r| ==> r[i].date < r[j].date
    ensures forall i :: 0 <= i < |r| ==> HasKey(cells, r[i].date) && r[i].humidity == Mean(Find(cells, r[i].date).value)
    ensures forall d :: HasKey(cells, d) ==> exists i :: 0 <= i < |r| && r[i].date == d
  {
    var sorted := SortByKey(cells);
    AscendingKeysDistinct(sorted);
    var r := seq(|sorted|, i requires 0 <= i < |sorted| => Point(sorted[i].0, Mean(sorted[i].1)));
    forall i | 0 <= i < |r| ensures HasKey(cells, r[i].date) && r[i].humidity == Mean(Find(cells, r[i].date).value) {
      assert sorted[i] in cells;
      FindIffEntry(cells, sorted[i].0, sorted[i].1);
    }
    forall d | HasKey(cells, d) ensures exists i :: 0 <= i < |r| && r[i].date == d {
      var j :| 0 <= j < |cells| && cells[j].0 == d;
      assert cells[j] in sorted;
      var i :| 0 <= i < |sorted| && sorted[i] == cells[j];
      assert r[i].date == d;
    }
    r
  }

  /** The chart the component draws. */
  function Chart(fields: seq<ChartField>, stations: seq<StationData>, selected: Option<int>): (r: seq<Point>)
    ensures forall i, j :: 0 <= i < j < |r| ==> r[i].date < r[j].date
  {
    ChartData(HumidityByDate(fields, stations, selected))
  }

  // ---------------------------------------------------------------------
  // Reference sums of aggregate mode
  // ---------------------------------------------------------------------

  /** Summed `tillable_area` of the fields on a station. */
  function AreaOnStation(fields: seq<ChartField>, stationId: int): real {
    if |fields| == 0 then 0.0
    else AreaOnStation(fields[..|fields| - 1], stationId)
         + (if fields[|fields| - 1].weatherStationId == stationId then OrZero(fields[|fields| - 1].tillableArea) else 0.0)
  }

  predicate ServesField(fields: seq<ChartField>, stationId: int) {
    exists i :: 0 <= i < |fields| && fields[i].weatherStationId == stationId
  }

  /** Σ humidity·w over one station's readings of date `d`. */
  function ReadingsTotal(values: seq<(Date, real)>, w: real, d: Date): real {
    if |values| == 0 then 0.0
    else ReadingsTotal(values[..|values| - 1], w, d)
         + (if values[|values| - 1].0 == d then Share(values[|values| - 1], w) else 0.0)
  }

  /** Σ w over one station's readings of date `d`. */
  function ReadingsWeight(values: seq<(Date, real)>, w: real, d: Date): real {
    if |values| == 0 then 0.0
    else ReadingsWeight(values[..|values| - 1], w, d) + (if values[|values| - 1].0 == d then w else 0.0)
  }

  /** Some counted station has a reading for date `d`. */
  predicate Reported(stations: seq<StationData>, areas: seq<(int, real)>, d: Date) {
    exists i :: 0 <= i < |stations| && StationWeight(areas, stations[i]).Some? && HasKey(stations[i].value, d)
  }

  /** Σ humidity·weight over every counted station's readings of `d`. */
  function TotalAt(stations: seq<StationData>, areas: seq<(int, real)>, d: Date): real {
    if |stations| == 0 then 0.0
    else TotalAt(stations[..|stations| - 1], areas, d)
         + match StationWeight(areas, stations[|stations| - 1])
           case None => 0.0
           case Some(w) => ReadingsTotal(stations[|stations| - 1].value, w, d)
  }

  /** Σ weight over every counted station's readings of `d`. */
  function WeightAt(stations: seq<StationData>, areas: seq<(int, real)>, d: Date): real {
    if |stations| == 0 then 0.0
    else WeightAt(stations[..|stations| - 1], areas, d)
         + match StationWeight(areas, stations[|stations| - 1])
           case None => 0.0
           case Some(w) => ReadingsWeight(stations[|stations| - 1].value, w, d)
  }

  function ExpectedCell(stations: seq<StationData>, areas: seq<(int, real)>, d: Date): Option<Cell> {
    if Reported(stations, areas, d) then Some(Cell(TotalAt(stations, areas, d), WeightAt(stations, areas, d)))
    else None
  }

  // ---------------------------------------------------------------------
  // The loops meet the reference sums
  // ---------------------------------------------------------------------

  lemma {:induction false} AddAreaFind(m: seq<(int, real)>, f: ChartField, stationId: int)
    ensures Find(AddArea(m, f), stationId)
            == if f.weatherStationId == stationId then Some(Find(m, f.weatherStationId).GetOr(0.0) + OrZero(f.tillableArea))
               else Find(m, stationId)
  {
    FindPut(m, f.weatherStationId, Find(m, f.weatherStationId).GetOr(0.0) + OrZero(f.tillableArea), stationId);
  }

  lemma {:induction false} ServesFieldSnoc(fields: seq<ChartField>, stationId: int)
    requires |fields| > 0
    ensures ServesField(fields, stationId) <==>
              ServesField(fields[..|fields| - 1], stationId) || fields[|fields| - 1].weatherStationId == stationId
  {
    var prefix := fields[..|fields| - 1];
    if ServesField(prefix, stationId) {
      var i :| 0 <= i < |prefix| && prefix[i].weatherStationId == stationId;
      assert fields[i] == prefix[i];
    }
  }

  /** Each station's running area is the summed area of the fields on it. */
  lemma {:induction false} StationAreasSum(fields: seq<ChartField>, stationId: int)
    ensures Find(StationAreas(fields), stationId)
            == if ServesField(fields, stationId) then Some(AreaOnStation(fields, stationId)) else None
    decreases |fields|
  {
    if |fields| > 0 {
      var prefix := fields[..|fields| - 1];
      var f := fields[|fields| - 1];
      var m := StationAreas(prefix);
      assert StationAreas(fields) == AddArea(m, f);
      StationAreasSum(prefix, stationId);
      AddAreaFind(m, f, stationId);
      ServesFieldSnoc(fields, stationId);
      if f.weatherStationId == stationId {
        if !ServesField(prefix, stationId) {
          NoFieldNoArea(prefix, stationId);
        }
        assert Find(m, stationId).GetOr(0.0) == AreaOnStation(prefix, stationId);
      }
    }
  }

  lemma {:induction false} NoFieldNoArea(fields: seq<ChartField>, stationId: int)
    requires !ServesField(fields, stationId)
    ensures AreaOnStation(fields, stationId) == 0.0
    decreases |fields|
  {
    if |fields| > 0 {
      var prefix := fields[..|fields| - 1];
      assert forall i :: 0 <= i < |prefix| ==> prefix[i] == fields[i];
      NoFieldNoArea(prefix, stationId);
    }
  }

  /** What the readings of one station do to the entry of date `d`. */
  function Merge(o: Option<Cell>, values: seq<(Date, real)>, w: real, d: Date): Option<Cell> {
    if HasKey(values, d) then
      var c := o.GetOr(Empty);
      Some(Cell(c.total + ReadingsTotal(values, w, d), c.weight + ReadingsWeight(values, w, d)))
    else o
  }

  lemma {:induction false} NoReadingNoSum(values: seq<(Date, real)>, w: real, d: Date)
    requires !HasKey(values, d)
    ensures ReadingsTotal(values, w, d) == 0.0 && ReadingsWeight(values, w, d) == 0.0
    decreases |values|
  {
    if |values| > 0 {
      var prefix := values[..|values| - 1];
      assert values == prefix + [values[|values| - 1]];
      HasKeyAppend(prefix, values[|values| - 1], d);
      NoReadingNoSum(prefix, w, d);
    }
  }

  /** How one reading changes a date's entry. */
  function Bump(o: Option<Cell>, e: (Date, real), w: real, d: Date): Option<Cell> {
    if e.0 == d then
      var c := o.GetOr(Empty);
      Some(Cell(c.total + Share(e, w), c.weight + w))
    else o
  }

  lemma {:induction false} AddReadingFind(m: seq<(Date, Cell)>, e: (Date, real), w: real, d: Date)
    ensures Find(AddReading(m, e, w), d) == Bump(Find(m, d), e, w, d)
  {
    var c := Find(m, e.0).GetOr(Empty);
    var cell := Cell(c.total + Share(e, w), c.weight + w);
    assert AddReading(m, e, w) == Put(m, e.0, cell);
    FindPut(m, e.0, cell, d);
    if e.0 == d {
      assert Bump(Find(m, d), e, w, d) == Some(cell);
    } else {
      assert Bump(Find(m, d), e, w, d) == Find(m, d);
    }
  }

  lemma {:induction false} MergeSnoc(o: Option<Cell>, values: seq<(Date, real)>, w: real, d: Date)
    requires |values| > 0
    ensures Merge(o, values, w, d) == Bump(Merge(o, values[..|values| - 1], w, d), values[|values| - 1], w, d)
  {
    var prefix := values[..|values| - 1];
    var e := values[|values| - 1];
    assert values == prefix + [e];
    HasKeyAppend(prefix, e, d);
    var c := o.GetOr(Empty);
    var t := ReadingsTotal(prefix, w, d);
    var g := ReadingsWeight(prefix, w, d);
    assert ReadingsTotal(values, w, d) == t + (if e.0 == d then Share(e, w) else 0.0);
    assert ReadingsWeight(values, w, d) == g + (if e.0 == d then w else 0.0);
    if !HasKey(prefix, d) {
      NoReadingNoSum(prefix, w, d);
      assert Merge(o, prefix, w, d) == o;
      if e.0 == d {
        assert Merge(o, values, w, d) == Some(Cell(c.total + Share(e, w), c.weight + w));
      } else {
        assert Merge(o, values, w, d) == o;
      }
    } else {
      assert HasKey(values, d);
      assert Merge(o, prefix, w, d) == Some(Cell(c.total + t, c.weight + g));
      assert Merge(o, values, w, d) == Some(Cell(c.total + ReadingsTotal(values, w, d), c.weight + ReadingsWeight(values, w, d)));
    }
  }

  lemma {:induction false} AddReadingsFind(m: seq<(Date, Cell)>, values: seq<(Date, real)>, w: real, d: Date)
    ensures Find(AddReadings(m, values, w), d) == Merge(Find(m, d), values, w, d)
    decreases |values|
  {
    if |values| > 0 {
      var prefix := values[..|values| - 1];
      AddReadingsFind(m, prefix, w, d);
      AddReadingFind(AddReadings(m, prefix, w), values[|values| - 1], w, d);
      MergeSnoc(Find(m, d), values, w, d);
    }
  }

  lemma {:induction false} NotReportedNoSum(stations: seq<StationData>, areas: seq<(int, real)>, d: Date)
    requires !Reported(stations, areas, d)
    ensures TotalAt(stations, areas, d) == 0.0 && WeightAt(stations, areas, d) == 0.0
    decreases |stations|
  {
    if |stations| > 0 {
      var prefix := stations[..|stations| - 1];
      assert forall i :: 0 <= i < |prefix| ==> prefix[i] == stations[i];
      NotReportedNoSum(prefix, areas, d);
      assert StationWeight(areas, stations[|stations| - 1]).Some? ==> !HasKey(stations[|stations| - 1].value, d);
      if StationWeight(areas, stations[|stations| - 1]).Some? {
        NoReadingNoSum(stations[|stations| - 1].value, StationWeight(areas, stations[|stations| - 1]).value, d);
      }
    }
  }

  lemma {:induction false} ReportedSnoc(stations: seq<StationData>, areas: seq<(int, real)>, d: Date)
    requires |stations| > 0
    ensures Reported(stations, areas, d) <==>
              Reported(stations[..|stations| - 1], areas, d)
              || (StationWeight(areas, stations[|stations| - 1]).Some? && HasKey(stations[|stations| - 1].value, d))
  {
    var prefix := stations[..|stations| - 1];
    if Reported(prefix, areas, d) {
      var i :| 0 <= i < |prefix| && StationWeight(areas, prefix[i]).Some? && HasKey(prefix[i].value, d);
      assert stations[i] == prefix[i];
    }
    if Reported(stations, areas, d) {
      var i :| 0 <= i < |stations| && StationWeight(areas, stations[i]).Some? && HasKey(stations[i].value, d);
      if i < |prefix| { assert prefix[i] == stations[i]; }
    }
  }

  /** The reference entry of a date after one more station record. */
  lemma {:induction false} ExpectedCellSnoc(stations: seq<StationData>, areas: seq<(int, real)>, d: Date)
    requires |stations| > 0
    ensures var prefix := stations[..|stations| - 1];
            var s := stations[|stations| - 1];
            ExpectedCell(stations, areas, d)
            == match StationWeight(areas, s)
               case None => ExpectedCell(prefix, areas, d)
               case Some(w) => Merge(ExpectedCell(prefix, areas, d), s.value, w, d)
  {
    var prefix := stations[..|stations| - 1];
    var s := stations[|stations| - 1];
    ReportedSnoc(stations, areas, d);
    if !Reported(prefix, areas, d) {
      NotReportedNoSum(prefix, areas, d);
    }
    match StationWeight(areas, s)
    case None =>
    case Some(w) =>
      if !HasKey(s.value, d) {
        NoReadingNoSum(s.value, w, d);
      }
  }

  /** After the outer loop every date holds exactly the reference sums. */
  lemma {:induction false} AggregateCellsFind(stations: seq<StationData>, areas: seq<(int, real)>, d: Date)
    ensures Find(AggregateCells(stations, areas), d) == ExpectedCell(stations, areas, d)
    decreases |stations|
  {
    if |stations| > 0 {
      var prefix := stations[..|stations| - 1];
      var s := stations[|stations| - 1];
      AggregateCellsFind(prefix, areas, d);
      ExpectedCellSnoc(stations, areas, d);
      match StationWeight(areas, s)
      case None =>
      case Some(w) =>
        AddReadingsFind(AggregateCells(prefix, areas), s.value, w, d);
    }
  }

  // ---------------------------------------------------------------------
  // Properties of the chart
  // ---------------------------------------------------------------------

  /** A station's weight is the summed area of the fields it serves, and the
      station is skipped exactly when that is zero or no field uses it. */
  lemma {:induction false} StationWeightOfFields(fields: seq<ChartField>, s: StationData)
    ensures StationWeight(StationAreas(fields), s)
            == if ServesField(fields, s.weatherHistoryableId) && AreaOnStation(fields, s.weatherHistoryableId) != 0.0
               then Some(AreaOnStation(fields, s.weatherHistoryableId)) else None
  {
    StationAreasSum(fields, s.weatherHistoryableId);
  }

  /** Aggregate mode: one point per date some counted station reports, whose
      value is Σ humidity·weight / Σ weight over those readings, or a gap
      when the weights cancel out. */
  lemma {:induction false} AggregateChart(fields: seq<ChartField>, stations: seq<StationData>)
    ensures var r := Chart(fields, stations, None);
            var areas := StationAreas(fields);
            && (forall i :: 0 <= i < |r| ==>
                  Reported(stations, areas, r[i].date)
                  && r[i].humidity == Mean(Cell(TotalAt(stations, areas, r[i].date), WeightAt(stations, areas, r[i].date))))
            && (forall d :: Reported(stations, areas, d) ==> exists i :: 0 <= i < |r| && r[i].date == d)
  {
    var areas := StationAreas(fields);
    var cells := AggregateCells(stations, areas);
    forall d ensures HasKey(cells, d) <==> Reported(stations, areas, d)
    ensures HasKey(cells, d) ==> Find(cells, d).value == Cell(TotalAt(stations, areas, d), WeightAt(stations, areas, d))
    {
      AggregateCellsFind(stations, areas, d);
    }
  }

  lemma {:induction false} CopySeriesFind(values: seq<(Date, real)>, d: Date)
    requires KeysDistinct(values)
    ensures Find(CopySeries(values), d) == if HasKey(values, d) then Some(Cell(Find(values, d).value, 1.0)) else None
    decreases |values|
  {
    if |values| > 0 {
      var prefix := values[..|values| - 1];
      var last := values[|values| - 1];
      assert values == prefix + [last];
      assert KeysDistinct(prefix);
      assert !HasKey(prefix, last.0);
      CopySeriesFind(prefix, d);
      FindPut(CopySeries(prefix), last.0, Cell(last.1, 1.0), d);
      FindAppend(prefix, last, d);
      HasKeyAppend(prefix, last, d);
    }
  }

  /** The points are exactly the readings, each humidity unchanged. */
  predicate ShowsSeries(r: seq<Point>, values: seq<(Date, real)>) {
    && (forall i :: 0 <= i < |r| ==> r[i].humidity.Some? && (r[i].date, r[i].humidity.value) in values)
    && (forall e :: e in values ==> Point(e.0, Some(e.1)) in r)
  }

  /** Selected-field mode: nothing when the field or its station is missing;
      otherwise exactly the first matching station's readings, unchanged. */
  lemma {:induction false} SelectedChart(fields: seq<ChartField>, stations: seq<StationData>, id: int)
    ensures match FieldWithId(fields, id)
            case None => Chart(fields, stations, Some(id)) == []
            case Some(f) =>
              match StationOf(stations, f.weatherStationId)
              case None => Chart(fields, stations, Some(id)) == []
              case Some(s) => KeysDistinct(s.value) ==> ShowsSeries(Chart(fields, stations, Some(id)), s.value)
  {
    match FieldWithId(fields, id)
    case None =>
    case Some(f) =>
      match StationOf(stations, f.weatherStationId)
      case None =>
      case Some(s) =>
        if KeysDistinct(s.value) {
          var cells := CopySeries(s.value);
          var r := ChartData(cells);
          forall i | 0 <= i < |r| ensures r[i].humidity.Some? && (r[i].date, r[i].humidity.value) in s.value {
            CopySeriesFind(s.value, r[i].date);
          }
          forall e | e in s.value ensures Point(e.0, Some(e.1)) in r {
            FindIffEntry(s.value, e.0, e.1);
            CopySeriesFind(s.value, e.0);
            var i :| 0 <= i < |r| && r[i].date == e.0;
            assert r[i] == Point(e.0, Some(e.1));
          }
        }
  }

  lemma {:induction false} AreaOnStationNonNegative(fields: seq<ChartField>, stationId: int)
    requires forall i :: 0 <= i < |fields| ==> OrZero(fields[i].tillableArea) >= 0.0
    ensures AreaOnStation(fields, stationId) >= 0.0
    decreases |fields|
  {
    if |fields| > 0 {
      var prefix := fields[..|fields| - 1];
      assert forall i :: 0 <= i < |prefix| ==> prefix[i] == fields[i];
      AreaOnStationNonNegative(prefix, stationId);
    }
  }

  lemma {:induction false} ReadingsWeightPositive(values: seq<(Date, real)>, w: real, d: Date)
    requires w > 0.0
    ensures ReadingsWeight(values, w, d) >= 0.0
    ensures HasKey(values, d) ==> ReadingsWeight(values, w, d) > 0.0
    decreases |values|
  {
    if |values| > 0 {
      var prefix := values[..|values| - 1];
      assert values == prefix + [values[|values| - 1]];
      HasKeyAppend(prefix, values[|values| - 1], d);
      ReadingsWeightPositive(prefix, w, d);
    }
  }

  /** Every counted station carries a positive weight. */
  predicate PositiveWeights(stations: seq<StationData>, areas: seq<(int, real)>) {
    forall i :: 0 <= i < |stations| && StationWeight(areas, stations[i]).Some? ==> StationWeight(areas, stations[i]).value > 0.0
  }

  lemma {:induction false} WeightAtPositive(stations: seq<StationData>, areas: seq<(int, real)>, d: Date)
    requires PositiveWeights(stations, areas)
    ensures WeightAt(stations, areas, d) >= 0.0
    ensures Reported(stations, areas, d) ==> WeightAt(stations, areas, d) > 0.0
    decreases |stations|
  {
    if |stations| > 0 {
      var prefix := stations[..|stations| - 1];
      var s := stations[|stations| - 1];
      assert forall i :: 0 <= i < |prefix| ==> prefix[i] == stations[i];
      WeightAtPositive(prefix, areas, d);
      ReportedSnoc(stations, areas, d);
      match StationWeight(areas, s)
      case None =>
      case Some(w) =>
        assert w > 0.0;
        ReadingsWeightPositive(s.value, w, d);
    }
  }

  /** With no negative field areas, aggregate mode never shows a gap: every
      reported date has a positive total weight. */
  lemma {:induction false} NoGapsWithoutNegativeAreas(fields: seq<ChartField>, stations: seq<StationData>)
    requires forall i :: 0 <= i < |fields| ==> OrZero(fields[i].tillableArea) >= 0.0
    ensures forall i :: 0 <= i < |Chart(fields, stations, None)| ==> Chart(fields, stations, None)[i].humidity.Some?
  {
    var areas := StationAreas(fields);
    AggregateChart(fields, stations);
    forall i | 0 <= i < |stations| && StationWeight(areas, stations[i]).Some?
      ensures StationWeight(areas, stations[i]).value > 0.0
    {
      StationWeightOfFields(fields, stations[i]);
      AreaOnStationNonNegative(fields, stations[i].weatherHistoryableId);
    }
    forall d ensures Reported(stations, areas, d) ==> WeightAt(stations, areas, d) > 0.0 {
      WeightAtPositive(stations, areas, d);
    }
  }

  /** The station weights of the example below. */
  lemma {:induction false} ExampleWeights(fields: seq<ChartField>, s1: StationData, s2: StationData)
    requires fields == [ChartField(1, 10, Some(100.0)), ChartField(2, 20, Some(300.0))]
    requires s1.weatherHistoryableId == 10 && s2.weatherHistoryableId == 20
    ensures StationWeight(StationAreas(fields), s1) == Some(100.0)
    ensures StationWeight(StationAreas(fields), s2) == Some(300.0)
  {
    var first := fields[..1];
    assert first[..0] == [];
    assert AreaOnStation(first, 10) == AreaOnStation([], 10) + 100.0;
    assert AreaOnStation(first, 20) == AreaOnStation([], 20) + 0.0;
    assert AreaOnStation(fields, 10) == AreaOnStation(first, 10) + 0.0;
    assert AreaOnStation(fields, 20) == AreaOnStation(first, 20) + 300.0;
    assert fields[0].weatherStationId == 10 && fields[1].weatherStationId == 20;
    StationWeightOfFields(fields, s1);
    StationWeightOfFields(fields, s2);
  }

  /** The sums of the example below. */
  lemma {:induction false} ExampleSums(stations: seq<StationData>, areas: seq<(int, real)>)
    requires |stations| == 2
    requires stations[0].value == [(5, 50.0)] && stations[1].value == [(5, 70.0)]
    requires StationWeight(areas, stations[0]) == Some(100.0)
    requires StationWeight(areas, stations[1]) == Some(300.0)
    ensures TotalAt(stations, areas, 5) == 26000.0
    ensures WeightAt(stations, areas, 5) == 400.0
    ensures forall d :: Reported(stations, areas, d) <==> d == 5
  {
    var v1 := stations[0].value;
    var v2 := stations[1].value;
    assert v1[..0] == [] && v2[..0] == [];
    assert Share(v1[0], 100.0) == 5000.0 && Share(v2[0], 300.0) == 21000.0;
    assert ReadingsTotal(v1, 100.0, 5) == ReadingsTotal([], 100.0, 5) + 5000.0;
    assert ReadingsWeight(v1, 100.0, 5) == ReadingsWeight([], 100.0, 5) + 100.0;
    assert ReadingsTotal(v2, 300.0, 5) == ReadingsTotal([], 300.0, 5) + 21000.0;
    assert ReadingsWeight(v2, 300.0, 5) == ReadingsWeight([], 300.0, 5) + 300.0;
    var first := stations[..1];
    assert first[..0] == [] && first[0] == stations[0];
    assert TotalAt(first, areas, 5) == TotalAt([], areas, 5) + 5000.0;
    assert WeightAt(first, areas, 5) == WeightAt([], areas, 5) + 100.0;
    assert TotalAt(stations, areas, 5) == TotalAt(first, areas, 5) + 21000.0;
    assert WeightAt(stations, areas, 5) == WeightAt(first, areas, 5) + 300.0;
    assert HasKey(v1, 5) by { assert v1[0].0 == 5; }
    forall d ensures Reported(stations, areas, d) ==> d == 5 {
      if Reported(stations, areas, d) {
        var j :| 0 <= j < |stations| && StationWeight(areas, stations[j]).Some? && HasKey(stations[j].value, d);
        assert stations[j].value[0].0 == 5;
      }
    }
  }

  /** Two fields on two stations, areas 100 and 300, humidities 50 and 70 on
      the same date: the chart shows (50·100 + 70·300) / 400 = 65. */
  lemma {:induction false} TwoStationExample(fields: seq<ChartField>, stations: seq<StationData>)
    requires fields == [ChartField(1, 10, Some(100.0)), ChartField(2, 20, Some(300.0))]
    requires stations == [StationData(1, 10, 2024, [(5, 50.0)]), StationData(2, 20, 2024, [(5, 70.0)])]
    ensures |Chart(fields, stations, None)| > 0
    ensures forall i :: 0 <= i < |Chart(fields, stations, None)| ==> Chart(fields, stations, None)[i] == Point(5, Some(65.0))
  {
    ExampleWeights(fields, stations[0], stations[1]);
    ExampleSums(stations, StationAreas(fields));
    AggregateChart(fields, stations);
  }
}

=== FILE: js_number.dfy ===
/** The two ways the components round to one decimal, and the IEEE outcome of
    a division the source leaves unguarded. Reals stand for the exact values
    the doubles approximate; binary representation error is not modelled. */
module JsNumber {

  /** A JS number that a division may turn into NaN or an infinity. */
  datatype Number = Finite(value: real) | NaN | PosInfinity | NegInfinity

  /** Nearest multiple of 1/10 at or above half-way, for x >= 0. */
  function HalfUp1(x: real): real {
    ((x * 10.0 + 0.5).Floor as real) / 10.0
  }

  /** `+x.toFixed(1)`: the digits of |x| rounded half up, the sign put back,
      so halves round away from zero. */
  function ToFixed1(x: real): real {
    if x < 0.0 then -HalfUp1(-x) else HalfUp1(x)
  }

  /** `Math.round(x * 10) / 10`: halves round towards +infinity. */
  function MathRound1(x: real): real {
    HalfUp1(x)
  }

  /** `a / b` for finite operands. */
  function Divide(a: real, b: real): (r: Number)
    ensures b != 0.0 ==> r == Finite(a / b)
    ensures b == 0.0 && a == 0.0 ==> r == NaN
    ensures b == 0.0 && a > 0.0 ==> r == PosInfinity
    ensures b == 0.0 && a < 0.0 ==> r == NegInfinity
  {
    if b != 0.0 then Finite(a / b)
    else if a == 0.0 then NaN
    else if a > 0.0 then PosInfinity
    else NegInfinity
  }

  /** `+n.toFixed(1)`: NaN and the infinities print as themselves and parse back. */
  function ToFixed1Number(n: Number): Number {
    match n
    case Finite(x) => Finite(ToFixed1(x))
    case _ => n
  }

  lemma HalfUp1Close(x: real)
    ensures x - 0.05 < HalfUp1(x) <= x + 0.05
  {
    var n := (x * 10.0 + 0.5).Floor;
    assert n as real <= x * 10.0 + 0.5 < n as real + 1.0;
  }

  /** Rounding to one decimal moves a value by at most half a tenth. */
  lemma ToFixed1Close(x: real)
    ensures x - 0.05 <= ToFixed1(x) <= x + 0.05
  {
    if x < 0.0 { HalfUp1Close(-x); } else { HalfUp1Close(x); }
  }

  lemma MathRound1Close(x: real)
    ensures x - 0.05 < MathRound1(x) <= x + 0.05
  {
    HalfUp1Close(x);
  }

  /** `v` is a whole number of tenths. */
  predicate WholeTenths(v: real) {
    (v * 10.0).Floor as real == v * 10.0
  }

  lemma MathRound1Tenths(x: real)
    ensures WholeTenths(MathRound1(x))
  {
    var n := (x * 10.0 + 0.5).Floor;
    assert MathRound1(x) * 10.0 == n as real;
  }

  /** `Math.round(x * 10) / 10` is the only whole number of tenths in the
      window (x - 0.05, x + 0.05]. */
  lemma MathRound1Unique(x: real, v: real)
    requires WholeTenths(v) && x - 0.05 < v <= x + 0.05
    ensures v == MathRound1(x)
  {
    var n := (x * 10.0 + 0.5).Floor;
    var m := (v * 10.0).Floor;
    assert n as real <= x * 10.0 + 0.5 < n as real + 1.0;
    assert x * 10.0 - 0.5 < m as real <= x * 10.0 + 0.5;
    assert n - 1 < m < n + 1;
    assert m == n;
    assert v == m as real / 10.0;
  }

  /** A value that already has one decimal is printed back unchanged. */
  lemma ToFixed1Tenths(n: int)
    ensures ToFixed1(n as real / 10.0) == n as real / 10.0
  {
    var x := n as real / 10.0;
    if n < 0 {
      assert (-x * 10.0 + 0.5).Floor == -n;
    } else {
      assert (x * 10.0 + 0.5).Floor == n;
    }
  }

  /** Rounding a non-negative value never makes it negative. */
  lemma HalfUp1NonNegative(x: real)
    requires x >= 0.0
    ensures HalfUp1(x) >= 0.0
  {
    assert (x * 10.0 + 0.5).Floor >= 0;
  }
}

=== FILE: string_order.dfy ===
/** The order `Array.prototype.sort()` puts strings in when given no
    comparator: lexicographic on characters, a proper prefix first. */
module StringOrder {

  /** `a` sorts strictly before `b`. */
  predicate Less(a: string, b: string)
    decreases |a|
  {
    |b| > 0 && (|a| == 0 || a[0] < b[0] || (a[0] == b[0] && Less(a[1..], b[1..])))
  }

  predicate Sorted(s: seq<string>) {
    forall i, j :: 0 <= i < j < |s| ==> Less(s[i], s[j])
  }

  lemma {:induction false} LessIrreflexive(a: string)
    ensures !Less(a, a)
    decreases |a|
  {
    if |a| > 0 {
      LessIrreflexive(a[1..]);
    }
  }

  lemma {:induction false} LessTransitive(a: string, b: string, c: string)
    requires Less(a, b) && Less(b, c)
    ensures Less(a, c)
    decreases |a|
  {
    if |a| > 0 && a[0] == b[0] && b[0] == c[0] {
      LessTransitive(a[1..], b[1..], c[1..]);
    }
  }

  /** Any two different strings are ordered one way or the other. */
  lemma {:induction false} LessTotal(a: string, b: string)
    ensures a == b || Less(a, b) || Less(b, a)
    decreases |a|
  {
    if |a| > 0 && |b| > 0 && a[0] == b[0] {
      LessTotal(a[1..], b[1..]);
      if a[1..] == b[1..] {
        assert a == [a[0]] + a[1..] && b == [b[0]] + b[1..];
      }
    }
  }

  lemma {:induction false} SortedDistinct(s: seq<string>)
    requires Sorted(s)
    ensures forall i, j :: 0 <= i < j < |s| ==> s[i] != s[j]
  {
    forall i, j | 0 <= i < j < |s| ensures s[i] != s[j] {
      LessIrreflexive(s[i]);
    }
  }

  function Insert(x: string, s: seq<string>): (r: seq<string>)
    requires Sorted(s) && x !in s
    ensures Sorted(r)
    ensures |r| == |s| + 1
    ensures forall c :: c in r <==> c == x || c in s
  {
    if |s| == 0 then [x]
    else if Less(x, s[0]) then
      assert forall j :: 0 <= j < |s| ==> Less(x, s[j]) by {
        forall j | 0 <= j < |s| ensures Less(x, s[j]) {
          if j > 0 { LessTransitive(x, s[0], s[j]); }
        }
      }
      [x] + s
    else
      LessTotal(x, s[0]);
      var t := Insert(x, s[1..]);
      assert forall c :: c in s <==> c == s[0] || c in s[1..];
      assert forall j :: 0 <= j < |t| ==> Less(s[0], t[j]) by {
        forall j | 0 <= j < |t| ensures Less(s[0], t[j]) {
          assert t[j] in t;
          if t[j] != x {
            var k :| 0 <= k < |s[1..]| && s[1..][k] == t[j];
            assert s[k + 1] == t[j];
          }
        }
      }
      [s[0]] + t
  }

  /** `Array.from(set).sort()` for duplicate-free input. */
  function Sort(s: seq<string>): (r: seq<string>)
    requires forall i, j :: 0 <= i < j < |s| ==> s[i] != s[j]
    ensures Sorted(r)
    ensures |r| == |s|
    ensures forall c :: c in r <==> c in s
  {
    if |s| == 0 then []
    else
      var t := Sort(s[1..]);
      assert forall c :: c in s <==> c == s[0] || c in s[1..];
      assert s[0] !in s[1..];
      Insert(s[0], t)
  }

  /** Two sorted lists with the same members are the same list: the sorted
      order does not depend on the order the members were collected in. */
  lemma {:induction false} SortedUnique(a: seq<string>, b: seq<string>)
    requires Sorted(a) && Sorted(b)
    requires forall c :: c in a <==> c in b
    ensures a == b
    decreases |a|
  {
    assert |b| > 0 ==> b[0] in a;
    if |a| > 0 {
      assert a[0] in b && b[0] in a;
      assert a[0] == b[0] by {
        var i :| 0 <= i < |b| && b[i] == a[0];
        var j :| 0 <= j < |a| && a[j] == b[0];
        if i > 0 && j > 0 {
          LessTransitive(a[0], a[j], a[0]);
          LessIrreflexive(a[0]);
        }
      }
      forall c ensures c in a[1..] <==> c in b[1..] {
        if c in a[1..] {
          var i :| 1 <= i < |a| && a[i] == c;
          assert c in a && c in b;
          var j :| 0 <= j < |b| && b[j] == c;
          if j == 0 { LessIrreflexive(a[0]); }
        }
        if c in b[1..] {
          var j :| 1 <= j < |b| && b[j] == c;
          assert c in b && c in a;
          var i :| 0 <= i < |a| && a[i] == c;
          if i == 0 { LessIrreflexive(b[0]); }
        }
      }
      SortedUnique(a[1..], b[1..]);
      assert a == [a[0]] + a[1..] && b == [b[0]] + b[1..];
    }
  }
}

=== FILE: weather_norms_table.dfy ===
/** The norms editor for one crop: the crop's norm periods in `period_id`
    order, adding the next period, editing a row in place and deleting the
    last period. Every request's outcome is an input: success (with the new
    record's id for an add) or failure. `Number(s)` is a parameter. */
module WeatherNormsTable {
  import opened FormTypes

  /** The server's answer: success with the id in the body, or a failure. */
  datatype Reply = Ok(id: int) | Failed

  /** The add row's inputs, as typed. */
  datatype NewNorm = NewNorm(
    periodId: nat,
    daysInPeriod: string,
    minTemp: string,
    normMeanTemp: string,
    normSumEffTemp: string,
    normPrecipitation: string,
    periodName: string)

  /** `Partial<Norm>`: the values of the row being edited. */
  datatype Edited = Edited(
    id: Option<int>,
    crop: Option<string>,
    periodId: Option<nat>,
    daysInPeriod: Option<real>,
    minTemp: Option<real>,
    normMeanTemp: Option<real>,
    normPrecipitation: Option<real>,
    normSumEffTemp: Option<real>,
    periodName: Option<Option<string>>)

  /** The editable columns of a row. */
  datatype Column = NameColumn | DaysColumn | MinTempColumn | MeanTempColumn | SumEffTempColumn | PrecipColumn

  // ---------------------------------------------------------------------
  // The rows shown
  // ---------------------------------------------------------------------

  /** `allNorms.filter(norm => norm.crop === cropName)`, order kept. */
  function CropNorms(all: seq<Norm>, cropName: string): (r: seq<Norm>)
    ensures forall n :: n in r <==> n in all && n.crop == cropName
    ensures |r| <= |all|
  {
    if |all| == 0 then []
    else
      var rest := CropNorms(all[1..], cropName);
      assert forall n :: n in all <==> n == all[0] || n in all[1..];
      if all[0].crop == cropName then [all[0]] + rest else rest
  }

  /** The crop's rows keep the fetched order and multiplicity: filtering a
      concatenation is concatenating the filtered parts, and a single row is
      kept exactly when it belongs to the crop. */
  lemma {:induction false} CropNormsAppend(a: seq<Norm>, b: seq<Norm>, cropName: string)
    ensures CropNorms(a + b, cropName) == CropNorms(a, cropName) + CropNorms(b, cropName)
    decreases |a|
  {
    if |a| == 0 {
      assert a + b == b;
    } else {
      assert (a + b)[1..] == a[1..] + b;
      CropNormsAppend(a[1..], b, cropName);
    }
  }

  lemma CropNormsSingle(n: Norm, cropName: string)
    ensures CropNorms([n], cropName) == if n.crop == cropName then [n] else []
  {
  }

  predicate ByPeriod(s: seq<Norm>) {
    forall i, j :: 0 <= i < j < |s| ==> s[i].periodId <= s[j].periodId
  }

  /** Places `x` before the first row whose period is not earlier, so rows
      with equal periods keep their order. */
  function InsertByPeriod(x: Norm, s: seq<Norm>): (r: seq<Norm>)
    ensures |r| == |s| + 1
  {
    if |s| == 0 || x.periodId <= s[0].periodId then [x] + s
    else [s[0]] + InsertByPeriod(x, s[1..])
  }

  /** The least period among `x` and the head of `s`. */
  function Lower(x: Norm, s: seq<Norm>): nat {
    if |s| == 0 || x.periodId <= s[0].periodId then x.periodId else s[0].periodId
  }

  /** Inserting into sorted rows keeps them sorted, and no row of the result
      is earlier than both `x` and the first row. */
  lemma {:induction false} InsertKeepsOrder(x: Norm, s: seq<Norm>)
    requires ByPeriod(s)
    ensures ByPeriod(InsertByPeriod(x, s))
    ensures forall i :: 0 <= i < |InsertByPeriod(x, s)| ==> InsertByPeriod(x, s)[i].periodId >= Lower(x, s)
  {
    if |s| > 0 && x.periodId > s[0].periodId {
      InsertKeepsOrder(x, s[1..]);
    }
  }

  /** Inserting adds exactly `x`. */
  lemma {:induction false} InsertAddsOne(x: Norm, s: seq<Norm>)
    ensures multiset(InsertByPeriod(x, s)) == multiset(s) + multiset{x}
  {
    if |s| > 0 && x.periodId > s[0].periodId {
      InsertAddsOne(x, s[1..]);
      assert s == [s[0]] + s[1..];
    }
  }

  /** A non-empty list is its head followed by its tail. */
  lemma {:induction false} HeadAndTail(s: seq<Norm>)
    requires |s| > 0
    ensures multiset(s) == multiset{s[0]} + multiset(s[1..])
  {
    assert s == [s[0]] + s[1..];
  }

  /** `[...norms].sort((a, b) => a.period_id - b.period_id)`, a stable sort. */
  function SortByPeriod(s: seq<Norm>): (r: seq<Norm>)
    ensures ByPeriod(r)
    ensures multiset(r) == multiset(s)
    ensures |r| == |s|
  {
    if |s| == 0 then []
    else
      var t := SortByPeriod(s[1..]);
      InsertKeepsOrder(s[0], t);
      InsertAddsOne(s[0], t);
      HeadAndTail(s);
      InsertByPeriod(s[0], t)
  }

  /** `sortedNorms[sortedNorms.length - 1]?.period_id ?? 0`: the largest
      period, or 0 for an empty table. */
  function LastPeriodId(norms: seq<Norm>): (r: nat)
    ensures forall n :: n in norms ==> n.periodId <= r
    ensures |norms| > 0 ==> exists n :: n in norms && n.periodId == r
    ensures |norms| == 0 ==> r == 0
  {
    var sorted := SortByPeriod(norms);
    if |sorted| == 0 then 0
    else
      var last := sorted[|sorted| - 1];
      assert last in multiset(norms);
      forall n | n in norms ensures n.periodId <= last.periodId {
        assert n in multiset(sorted);
        var k :| 0 <= k < |sorted| && sorted[k] == n;
      }
      last.periodId
  }

  /** The period the add row proposes: one after the last, or 1. */
  function NextPeriodId(norms: seq<Norm>): (r: nat)
    ensures r >= 1
    ensures forall n :: n in norms ==> n.periodId < r
    ensures |norms| > 0 ==> exists n :: n in norms && n.periodId == r - 1
  {
    if |SortByPeriod(norms)| > 0 then LastPeriodId(norms) + 1 else 1
  }

  /** The delete control sits only on rows of the last period. */
  predicate DeleteOffered(norms: seq<Norm>, n: Norm) {
    n.periodId == LastPeriodId(norms)
  }

  /** The rows that carry the delete control are exactly those of the
      latest period, and a non-empty table has at least one. */
  lemma DeleteOfferedOnlyLatest(norms: seq<Norm>, n: Norm)
    requires n in norms
    ensures DeleteOffered(norms, n) <==> forall m :: m in norms ==> m.periodId <= n.periodId
    ensures exists m :: m in norms && DeleteOffered(norms, m)
  {
    var last := LastPeriodId(norms);
    var m :| m in norms && m.periodId == last;
  }

  // ---------------------------------------------------------------------
  // Adding a period
  // ---------------------------------------------------------------------

  /** Every input is filled in (a non-empty string is truthy). */
  predicate Filled(nn: NewNorm) {
    |nn.daysInPeriod| > 0 && |nn.minTemp| > 0 && |nn.normMeanTemp| > 0
    && |nn.normSumEffTemp| > 0 && |nn.normPrecipitation| > 0 && |nn.periodName| > 0
  }

  /** The norm the add creates: the payload plus the id the server assigned. */
  function Created(nn: NewNorm, cropName: string, toNumber: string -> real, id: int): (n: Norm)
    ensures n.id == id && n.crop == cropName && n.periodId == nn.periodId
    ensures n.periodName == Some(nn.periodName)
    ensures n.daysInPeriod == toNumber(nn.daysInPeriod) && n.minTemp == toNumber(nn.minTemp)
    ensures n.normMeanTemp == toNumber(nn.normMeanTemp) && n.normSumEffTemp == toNumber(nn.normSumEffTemp)
    ensures n.normPrecipitation == toNumber(nn.normPrecipitation)
  {
    Norm(id, cropName, nn.periodId, toNumber(nn.daysInPeriod), toNumber(nn.minTemp),
         toNumber(nn.normMeanTemp), toNumber(nn.normPrecipitation), toNumber(nn.normSumEffTemp),
         Some(nn.periodName))
  }

  /** `handleAddSubmit`: an unfilled form sends nothing; a filled one appends
      the created norm when the server accepts it. */
  function SubmitAdd(norms: seq<Norm>, nn: NewNorm, cropName: string, toNumber: string -> real, reply: Reply): (r: seq<Norm>)
    ensures !Filled(nn) || reply.Failed? ==> r == norms
    ensures Filled(nn) && reply.Ok? ==> |r| == |norms| + 1 && r[..|norms|] == norms
    ensures Filled(nn) && reply.Ok? ==> r[|norms|] == Created(nn, cropName, toNumber, reply.id)
  {
    if !Filled(nn) then norms
    else match reply
      case Ok(id) => norms + [Created(nn, cropName, toNumber, id)]
      case Failed => norms
  }

  /** `handleAddClick`: empty inputs and the next period. */
  function StartAdd(norms: seq<Norm>): (nn: NewNorm)
    ensures nn.periodId == NextPeriodId(norms)
    ensures !Filled(nn)
  {
    NewNorm(NextPeriodId(norms), "", "", "", "", "", "")
  }

  // ---------------------------------------------------------------------
  // Editing a row
  // ---------------------------------------------------------------------

  /** `startEditing(norm)`: every value of the row. */
  function FromNorm(n: Norm): (e: Edited)
    ensures e.id == Some(n.id) && e.periodId == Some(n.periodId)
  {
    Edited(Some(n.id), Some(n.crop), Some(n.periodId), Some(n.daysInPeriod), Some(n.minTemp),
           Some(n.normMeanTemp), Some(n.normPrecipitation), Some(n.normSumEffTemp), Some(n.periodName))
  }

  /** `handleInputChange(field, value)`: the name is kept as typed, every
      other column becomes `Number(value)`. */
  function InputChange(e: Edited, col: Column, value: string, toNumber: string -> real): (r: Edited)
    ensures col == NameColumn ==> r.periodName == Some(Some(value))
    ensures col != NameColumn ==> r.periodName == e.periodName
    ensures r.id == e.id && r.crop == e.crop && r.periodId == e.periodId
  {
    match col
    case NameColumn => e.(periodName := Some(Some(value)))
    case DaysColumn => e.(daysInPeriod := Some(toNumber(value)))
    case MinTempColumn => e.(minTemp := Some(toNumber(value)))
    case MeanTempColumn => e.(normMeanTemp := Some(toNumber(value)))
    case SumEffTempColumn => e.(normSumEffTemp := Some(toNumber(value)))
    case PrecipColumn => e.(normPrecipitation := Some(toNumber(value)))
  }

  /** `now` is the edited value when one was given, and `before` otherwise. */
  predicate Overrides<T(==)>(edited: Option<T>, before: T, now: T) {
    match edited
    case Some(v) => now == v
    case None => now == before
  }

  /** `{ ...norm, ...editedValues }`: edited values win where present. */
  function Merge(n: Norm, e: Edited): (r: Norm)
    ensures Overrides(e.id, n.id, r.id) && Overrides(e.crop, n.crop, r.crop)
    ensures Overrides(e.periodId, n.periodId, r.periodId)
    ensures Overrides(e.daysInPeriod, n.daysInPeriod, r.daysInPeriod)
    ensures Overrides(e.minTemp, n.minTemp, r.minTemp)
    ensures Overrides(e.normMeanTemp, n.normMeanTemp, r.normMeanTemp)
    ensures Overrides(e.normPrecipitation, n.normPrecipitation, r.normPrecipitation)
    ensures Overrides(e.normSumEffTemp, n.normSumEffTemp, r.normSumEffTemp)
    ensures Overrides(e.periodName, n.periodName, r.periodName)
  {
    Norm(e.id.GetOr(n.id), e.crop.GetOr(n.crop), e.periodId.GetOr(n.periodId),
         e.daysInPeriod.GetOr(n.daysInPeriod), e.minTemp.GetOr(n.minTemp),
         e.normMeanTemp.GetOr(n.normMeanTemp), e.normPrecipitation.GetOr(n.normPrecipitation),
         e.normSumEffTemp.GetOr(n.normSumEffTemp), e.periodName.GetOr(n.periodName))
  }

  /** `handleEditKeyDown` on Enter: after a successful PUT, the rows with the
      edited id take the edited values, provided those carry an id. */
  function CommitEdit(norms: seq<Norm>, id: int, e: Edited, reply: Reply): (r: seq<Norm>)
    ensures |r| == |norms|
    ensures reply.Failed? || e.id.None? ==> r == norms
    ensures forall i :: 0 <= i < |norms| && norms[i].id != id ==> r[i] == norms[i]
    ensures reply.Ok? && e.id.Some? ==>
      forall i :: 0 <= i < |norms| && norms[i].id == id ==> r[i] == Merge(norms[i], e)
  {
    if reply.Failed? || e.id.None? then norms
    else seq(|norms|, i requires 0 <= i < |norms| => if norms[i].id == id then Merge(norms[i], e) else norms[i])
  }

  // ---------------------------------------------------------------------
  // Deleting a row
  // ---------------------------------------------------------------------

  /** `prev.filter(norm => norm.id !== id)` after a successful DELETE. */
  function Delete(norms: seq<Norm>, id: int, reply: Reply): (r: seq<Norm>)
    ensures reply.Failed? ==> r == norms
    ensures reply.Ok? ==> forall n :: n in r <==> n in norms && n.id != id
  {
    if reply.Failed? then norms else Without(norms, id)
  }

  function Without(norms: seq<Norm>, id: int): (r: seq<Norm>)
    ensures forall n :: n in r <==> n in norms && n.id != id
  {
    if |norms| == 0 then []
    else
      var rest := Without(norms[1..], id);
      assert forall n :: n in norms <==> n == norms[0] || n in norms[1..];
      if norms[0].id != id then [norms[0]] + rest else rest
  }

  /** Deleting keeps the other rows in order, each as often as before:
      deleting from a concatenation is deleting from each part, and a single
      row disappears exactly when the DELETE succeeded and the row has the id. */
  lemma {:induction false} DeleteAppend(a: seq<Norm>, b: seq<Norm>, id: int, reply: Reply)
    ensures Delete(a + b, id, reply) == Delete(a, id, reply) + Delete(b, id, reply)
  {
    if reply.Ok? {
      WithoutAppend(a, b, id);
    }
  }

  lemma DeleteSingle(n: Norm, id: int, reply: Reply)
    ensures Delete([n], id, reply) == if reply.Ok? && n.id == id then [] else [n]
  {
    assert [n][1..] == [] && Without([], id) == [];
  }

  lemma {:induction false} WithoutAppend(a: seq<Norm>, b: seq<Norm>, id: int)
    ensures Without(a + b, id) == Without(a, id) + Without(b, id)
    decreases |a|
  {
    if |a| == 0 {
      assert a + b == b;
    } else {
      assert (a + b)[1..] == a[1..] + b;
      WithoutAppend(a[1..], b, id);
    }
  }

  // ---------------------------------------------------------------------
  // Properties across operations
  // ---------------------------------------------------------------------

  predicate IdsDistinct(norms: seq<Norm>) {
    forall i, j :: 0 <= i < j < |norms| ==> norms[i].id != norms[j].id
  }

  /** The period of each row, in row order. */
  function PeriodIds(norms: seq<Norm>): (r: seq<nat>)
    ensures |r| == |norms|
  {
    if |norms| == 0 then [] else [norms[0].periodId] + PeriodIds(norms[1..])
  }

  /** `[1, 2, ..., n]`. */
  function Range(n: nat): (r: seq<nat>)
    ensures |r| == n
  {
    if n == 0 then [] else Range(n - 1) + [n]
  }

  /** The periods are exactly 1..n, each once. */
  predicate Contiguous(norms: seq<Norm>) {
    multiset(PeriodIds(norms)) == multiset(Range(|norms|))
  }

  lemma {:induction false} InPeriodIds(norms: seq<Norm>, p: nat)
    ensures p in multiset(PeriodIds(norms)) <==> exists n :: n in norms && n.periodId == p
    decreases |norms|
  {
    if |norms| > 0 {
      InPeriodIds(norms[1..], p);
      assert forall n :: n in norms <==> n == norms[0] || n in norms[1..];
    }
  }

  lemma {:induction false} InRange(n: nat, p: nat)
    ensures p in multiset(Range(n)) <==> 1 <= p <= n
    decreases n
  {
    if n > 0 {
      InRange(n - 1, p);
    }
  }

  /** With contiguous periods the next period is one past the count. */
  lemma {:induction false} NextOfContiguous(norms: seq<Norm>)
    requires Contiguous(norms)
    ensures NextPeriodId(norms) == |norms| + 1
    ensures |norms| > 0 ==> LastPeriodId(norms) == |norms|
  {
    var n := |norms|;
    if n > 0 {
      var last := LastPeriodId(norms);
      InRange(n, n);
      InPeriodIds(norms, n);
      InRange(n, last);
      InPeriodIds(norms, last);
    }
  }

  /** Adding the proposed period to a contiguous table keeps it contiguous. */
  lemma {:induction false} AddKeepsContiguous(norms: seq<Norm>, nn: NewNorm, cropName: string, toNumber: string -> real, reply: Reply)
    requires Contiguous(norms)
    requires nn.periodId == NextPeriodId(norms)
    ensures Contiguous(SubmitAdd(norms, nn, cropName, toNumber, reply))
  {
    NextOfContiguous(norms);
    var r := SubmitAdd(norms, nn, cropName, toNumber, reply);
    if r != norms {
      assert r == norms + [r[|norms|]];
      PeriodIdsAppend(norms, r[|norms|]);
    }
  }

  lemma {:induction false} PeriodIdsAppend(norms: seq<Norm>, x: Norm)
    ensures PeriodIds(norms + [x]) == PeriodIds(norms) + [x.periodId]
    decreases |norms|
  {
    if |norms| > 0 {
      assert (norms + [x])[1..] == norms[1..] + [x];
      PeriodIdsAppend(norms[1..], x);
    } else {
      assert norms + [x] == [x];
    }
  }

  /** Removing one row removes its period from the multiset of periods. */
  lemma {:induction false} WithoutOne(norms: seq<Norm>, i: int)
    requires IdsDistinct(norms) && 0 <= i < |norms|
    ensures multiset(PeriodIds(Without(norms, norms[i].id))) + multiset{norms[i].periodId} == multiset(PeriodIds(norms))
    decreases |norms|
  {
    var id := norms[i].id;
    var tail := norms[1..];
    if i == 0 {
      assert forall n :: n in tail ==> n.id != id by {
        forall n | n in tail ensures n.id != id {
          var k :| 0 <= k < |tail| && tail[k] == n;
          assert norms[k + 1] == n;
        }
      }
      WithoutNone(tail, id);
    } else {
      assert tail[i - 1] == norms[i];
      assert IdsDistinct(tail) by {
        forall a, b | 0 <= a < b < |tail| ensures tail[a].id != tail[b].id {
          assert tail[a] == norms[a + 1] && tail[b] == norms[b + 1];
        }
      }
      WithoutOne(tail, i - 1);
      assert norms[0].id != id;
      assert Without(norms, id) == [norms[0]] + Without(tail, id);
      assert PeriodIds([norms[0]] + Without(tail, id))[1..] == PeriodIds(Without(tail, id));
    }
  }

  /** Removing an id no row carries changes nothing. */
  lemma {:induction false} WithoutNone(norms: seq<Norm>, id: int)
    requires forall n :: n in norms ==> n.id != id
    ensures Without(norms, id) == norms
    decreases |norms|
  {
    if |norms| > 0 {
      assert norms[0] in norms;
      assert forall n :: n in norms[1..] ==> n in norms;
      WithoutNone(norms[1..], id);
      assert norms == [norms[0]] + norms[1..];
    }
  }

  /** Deleting a row that carries the control keeps a contiguous table
      contiguous: only the last period can go. */
  lemma {:induction false} DeleteLastKeepsContiguous(norms: seq<Norm>, target: Norm, reply: Reply)
    requires Contiguous(norms) && IdsDistinct(norms)
    requires target in norms && DeleteOffered(norms, target)
    ensures Contiguous(Delete(norms, target.id, reply))
  {
    if reply.Ok? {
      NextOfContiguous(norms);
      var n: nat := |norms|;
      var i :| 0 <= i < n && norms[i] == target;
      WithoutOne(norms, i);
      DropLast(Without(norms, target.id), n);
    }
  }

  /** Taking the top period out of 1..n leaves 1..n-1. */
  lemma {:induction false} DropLast(rest: seq<Norm>, n: nat)
    requires n > 0
    requires multiset(PeriodIds(rest)) + multiset{n} == multiset(Range(n))
    ensures Contiguous(rest)
  {
    var k: nat := n - 1;
    assert multiset(PeriodIds(rest)) == multiset(Range(k)) by {
      RangeSnoc(n);
      MultisetCancel(multiset(PeriodIds(rest)), multiset(Range(k)), n);
    }
    ContiguousFromIds(rest, k);
  }

  /** Rows whose periods are 1..k, each once, number exactly k. */
  lemma {:induction false} ContiguousFromIds(rest: seq<Norm>, k: nat)
    requires multiset(PeriodIds(rest)) == multiset(Range(k))
    ensures Contiguous(rest)
  {
    assert |rest| == |multiset(PeriodIds(rest))| == |multiset(Range(k))| == k;
  }

  lemma RangeSnoc(n: nat)
    requires n > 0
    ensures multiset(Range(n)) == multiset(Range(n - 1)) + multiset{n}
  {
  }

  lemma MultisetCancel(a: multiset<nat>, b: multiset<nat>, x: nat)
    requires a + multiset{x} == b + multiset{x}
    ensures a == b
  {
    forall y ensures a[y] == b[y] {
      assert (a + multiset{x})[y] == (b + multiset{x})[y];
    }
  }

  /** Committing an edit that started from a row and only touched its input
      columns keeps every row's period. */
  lemma {:induction false} EditKeepsPeriods(norms: seq<Norm>, n: Norm, e: Edited, reply: Reply)
    requires IdsDistinct(norms) && n in norms
    requires e.id == Some(n.id) && e.periodId == Some(n.periodId)
    ensures PeriodIds(CommitEdit(norms, n.id, e, reply)) == PeriodIds(norms)
  {
    var r := CommitEdit(norms, n.id, e, reply);
    var k :| 0 <= k < |norms| && norms[k] == n;
    forall i | 0 <= i < |norms| ensures r[i].periodId == norms[i].periodId {
      if norms[i].id == n.id && reply.Ok? {
        assert i == k;
      }
    }
    SamePeriods(r, norms);
  }

  lemma {:induction false} SamePeriods(a: seq<Norm>, b: seq<Norm>)
    requires |a| == |b|
    requires forall i :: 0 <= i < |a| ==> a[i].periodId == b[i].periodId
    ensures PeriodIds(a) == PeriodIds(b)
    decreases |a|
  {
    if |a| > 0 {
      SamePeriods(a[1..], b[1..]);
    }
  }

  /** Typing in the input columns never touches the id or the period, so
      an edit begun with `startEditing` still carries both. */
  lemma {:induction false} InputsKeepIdentity(n: Norm, changes: seq<(Column, string)>, toNumber: string -> real)
    ensures Typed(FromNorm(n), changes, toNumber).id == Some(n.id)
    ensures Typed(FromNorm(n), changes, toNumber).periodId == Some(n.periodId)
    decreases |changes|
  {
    if |changes| > 0 {
      InputsKeepIdentity(n, changes[..|changes| - 1], toNumber);
    }
  }

  /** The edited values after a series of keystrokes. */
  function Typed(e: Edited, changes: seq<(Column, string)>, toNumber: string -> real): Edited {
    if |changes| == 0 then e
    else
      var last := changes[|changes| - 1];
      InputChange(Typed(e, changes[..|changes| - 1], toNumber), last.0, last.1, toNumber)
  }

  /** Applying the same edit twice is applying it once. */
  lemma MergeIdempotent(n: Norm, e: Edited)
    ensures Merge(Merge(n, e), e) == Merge(n, e)
  {
  }

  /** Once a commit has succeeded, pressing Enter again with the same values,
      on an edit that keeps the row's id, changes nothing more. */
  lemma {:induction false} CommitEditTwice(norms: seq<Norm>, id: int, e: Edited, reply: Reply, again: Reply)
    requires reply.Ok? && (e.id.None? || e.id == Some(id))
    ensures CommitEdit(CommitEdit(norms, id, e, reply), id, e, again) == CommitEdit(norms, id, e, reply)
  {
    var once := CommitEdit(norms, id, e, reply);
    var twice := CommitEdit(once, id, e, again);
    forall i | 0 <= i < |norms| ensures twice[i] == once[i] {
      if norms[i].id == id && e.id.Some? {
        MergeIdempotent(norms[i], e);
      }
    }
  }

  /** Committing the untouched values of a row leaves the table as it was. */
  lemma {:induction false} UntouchedEditIsIdentity(norms: seq<Norm>, n: Norm, reply: Reply)
    requires IdsDistinct(norms) && n in norms
    ensures CommitEdit(norms, n.id, FromNorm(n), reply) == norms
  {
    var r := CommitEdit(norms, n.id, FromNorm(n), reply);
    var k :| 0 <= k < |norms| && norms[k] == n;
    forall i | 0 <= i < |norms| ensures r[i] == norms[i] {
      if norms[i].id == n.id && reply.Ok? {
        assert i == k;
      }
    }
  }

  /** The rows shown are the crop's norms in period order: every shown row
      is one of the crop's, each as often as it was fetched. */
  lemma {:induction false} ShownRows(all: seq<Norm>, cropName: string)
    ensures ByPeriod(SortByPeriod(CropNorms(all, cropName)))
    ensures forall n :: n in SortByPeriod(CropNorms(all, cropName)) <==> n in all && n.crop == cropName
    ensures multiset(SortByPeriod(CropNorms(all, cropName))) == multiset(CropNorms(all, cropName))
  {
    var shown := SortByPeriod(CropNorms(all, cropName));
    forall n ensures n in shown <==> n in CropNorms(all, cropName) {
      assert n in shown <==> n in multiset(shown);
    }
  }
}
